=== FILE: README.md ===
# QSP protocol engine in Dafny

QSP ("Quick Stable Protocol") is a small reliability layer over a datagram
transport. One session serves one conversation. `qsp_send` cuts a payload into
fragments whose `frg` counts down to 0, queues them on `snd_queue` and transmits
them. In HALF and WEAK mode a transmitted fragment waits on `snd_buf` until the
peer acknowledges it. In SINGLE mode it is sent three times and dropped. The
receiver decodes each datagram, drops duplicates and parks fragments on
`rcv_buf`. It moves fragments to `rcv_queue` while the head of `rcv_buf` is the
fragment `rcv_nxt` expects, and answers with an ACK: a full header in HALF mode,
one byte in WEAK mode. It asks for a resend (AGAIN) when too many fragments wait.
`qsp_recv` hands the first complete message in `rcv_queue` to the application.

The model is a pure state transformer. `Protocol.Session` holds `conv`, `mtu`,
`mss`, `mode`, `ver`, the 32-bit `rcv_nxt`, the `last` header, and the four
queues as `seq<Node>`. The clock is a parameter `now`. What the transport
delivers is a parameter: the scratch buffer and the length `qsp_input`
returned. What the engine hands to the transport is returned as a list of wire
messages.

Modules follow the source:

- `Bytes` (network.h): the fixed-width types, the lsb-first 8/16/32-bit cursor
  codec, `_imin_`, `_imax_`, `_ibound_`, and explicit u32 wrap-around.
- `IQueue` (queue.h): the intrusive circular list as a map of `next`/`prev`
  links. Each macro performs the same stores in the same order. `Ring` says which
  sequence of cells a list holds. The lemmas show each macro realises a sequence
  operation, which is why the engine keeps its queues as sequences.
- `Protocol` (qsp.h, `qsp_create`, `qsp_setmode`): constants, `Header`, `Node`,
  `Session`.
- `Codec`: `qsp_encode_seg` and the decode block of `qsp_recv_flush`.
- `Sender`: the slicing in `qsp_send`, the `snd_queue` pass of `qsp_send_flush`,
  and one timeout scan of `snd_buf`.
- `Ack`: `qsp_parse_ack`, `qsp_respond_ack`, `qsp_request_again`.
- `Receiver`: `qsp_parse_data`, one pass and the whole loop of
  `qsp_recv_flush`, `qsp_peeksize`, `qsp_recv`.
- `Delivery`: end-to-end lemmas. Fragments sent by one side and read by the
  other reassemble into the payload, and ACKs remove what they acknowledge.

Notable behaviours of the code, which the model keeps as written:

- The second duplicate test in `qsp_parse_data` compares `sn` (the fragment count
  of the message), not `frg`. So while a fragment waits in `rcv_buf`, every new
  fragment of a message with the same count is dropped.
  `Receiver.LostFirstFragmentStallsMessage` shows a message whose first fragment
  was lost stalling this way.
- The bootstrap of `rcv_nxt` runs even for a segment that is then dropped as a
  repeat. A second copy of fragment 1 of a two-fragment message can arrive after
  fragment 1 was drained and `rcv_nxt` went back to 0. SINGLE mode sends three
  copies, and a lost ACK makes the sender repeat one. That copy sets `rcv_nxt`
  to 1 again, so fragment 0 then waits in `rcv_buf` for good.
  `Receiver.DuplicateFragmentRebootstraps` shows this.
- A fresh node goes to the front of `rcv_buf`: the backward duplicate scan runs
  off the front without a match and leaves its cursor on the list head. The drain looks only at the head
  of `rcv_buf`, never further in.
- After fragment 0 is drained, `rcv_nxt` wraps to 0xFFFFFFFF. The receive loop
  then resets it to 0 and stops.
- Re-sending a node (timeout scan or AGAIN) restamps its local send time. Its
  header and payload, and so its wire bytes, are unchanged.
- The AGAIN lookup never advances its cursor. `Receiver.Again` models this as
  written. If the head of `snd_buf` is the requested fragment, it is re-sent.
  Any other head loops forever (`Spin`). With an empty `snd_buf`, the list head
  itself would be sent (`Undefined`).
- `qsp_release` frees no queued node.
- The receive loop stops as soon as `qsp_input` returns 0, even in the middle of a
  message. The fragments already in `rcv_queue` then read as one message, because
  `qsp_peeksize` with no fragment 0 in the queue adds up the whole queue. So a
  non-blocking caller can be handed a partial message.
  `Delivery.PartialMessageDelivered` shows fragment 1 of a two-fragment message
  handed out alone as a three-byte message.

## Model

| member | source | states |
|---|---|---|
| Bytes.Get8Put8 | QSP/network.h:34-38 | decoding one byte at the cursor where it was encoded returns it and advances the cursor by one |
| Bytes.Get16Put16 | QSP/network.h:40-44 | the 16-bit encoder appends two bytes and keeps what was written before; the decoder at that cursor returns the value and advances by two |
| Bytes.Get16Le16 | QSP/network.h:40-44 | wherever the two lsb-first bytes of a value sit, the 16-bit decoder reads that value |
| Bytes.Put32Le32 | QSP/network.h:46-47 | the 32-bit encoder appends exactly the four bytes of the value, least significant first |
| Bytes.Get32Le32 | QSP/network.h:49-50 | wherever the four lsb-first bytes of a value sit, the 32-bit decoder reads that value and advances by four |
| Bytes.Get32Put32 | QSP/network.h:46-50 | the 32-bit decoder inverts the encoder at the same cursor, whatever follows, and advances by four |
| Bytes.IMin | QSP/network.h:52-53 | the result is one of the arguments and no larger than either |
| Bytes.IMax | QSP/network.h:55-56 | the result is one of the arguments and no smaller than either |
| Bytes.IBound | QSP/network.h:58-59 | for `lower <= upper` the result lies in `[lower, upper]`: `middle` when inside, `lower` below it, `upper` above it |
| Bytes.Sub32 | QSP/qsp.c:213 | u32 subtraction is the integer difference, plus 2^32 when it would be negative |
| Bytes.Add32 | QSP/qsp.c:337 | u32 addition is the integer sum, minus 2^32 when it overflows |
| Protocol.ConstantsAgree | QSP/qsp.h:35-70 | the header is 24 bytes, mss is 1376, the scratch buffer 4200, a header plus one mss fits the MTU; the version fits u16; command codes and mode codes are pairwise distinct |
| Protocol.Create | QSP/qsp.c:537-575 | a new session has the given conv, `mss = mtu - 24`, HALF mode, the protocol version, `rcv_nxt = 0`, a zeroed `last` and four empty queues, and is well-formed |
| Protocol.SetMode | QSP/qsp.c:775-782 | any mode value is stored and nothing else changes; well-formedness is kept |
| Codec.EncodeLayout | QSP/qsp.c:75-90 | `Codec.EncodeHeader` (qsp_encode_seg) writes conv, frg, ts, sn (4 bytes each) then cmd, mode, ver, len (2 bytes each), lsb first, 24 bytes in all |
| Codec.DecodeEncode | QSP/qsp.c:384-397 | `Codec.DecodeHeader` (the decode block) inverts `EncodeHeader`: decoding the first 24 bytes of any buffer that starts with an encoded header gives back the same eight fields |
| Codec.EncodeInjective | QSP/qsp.c:75-90 | distinct headers never share an encoding |
| Codec.WireParts | QSP/qsp.c:173-193 | `Codec.Wire`, the bytes qsp_send_node hands over, is 24 + len bytes; its header decodes back and its payload follows the header |
| Sender.FragmentCount | QSP/qsp.c:620-626 | at least one fragment; exactly one when `len <= mss`; otherwise the least count whose fragments hold `len` bytes |
| Sender.Slices | QSP/qsp.c:628-662 | each slice is at most mss bytes, all but the last are full, and the slices concatenate to the consumed prefix of the buffer |
| Sender.FragmentShape | QSP/qsp.c:629-662 | `Sender.Fragment` (the loop of `qsp_send`) builds `max(1, ceil(len/mss))` PUSH nodes of the session's conv with `frg = count-i-1` and `sn = count`; all are at most mss bytes, all but the last exactly mss; mode, ver and ts come from the session and clock; the payloads in queue order concatenate to the input |
| Sender.WeakFragmentsFitOneByte | QSP/qsp.c:610-614 | a payload that passes the WEAK size limit yields at most 256 fragments, each with `frg <= 255` |
| Sender.TransmitPass | QSP/qsp.c:298-319 | the pass empties snd_queue and sends every node in order, three times in a row in SINGLE mode and once otherwise; outside SINGLE mode the nodes, restamped, are appended to snd_buf; in SINGLE mode snd_buf is unchanged; nothing else changes |
| Sender.PassSendsOnce | QSP/qsp.c:301-313 | outside SINGLE mode the pass sends exactly one wire message per queued node, in queue order |
| Sender.Send | QSP/qsp.c:602-671 | a negative length is -1 and a WEAK payload beyond 256*mss is -2, with nothing queued or sent; otherwise the call returns `len`, leaves snd_queue empty and changes only the send queues |
| Sender.SendTransmitsFragments | QSP/qsp.c:629-664 | a successful send from an idle sender transmits exactly the payload's fragments: once each and held on snd_buf in HALF/WEAK, each fragment's wire bytes three times in a row, in order, with snd_buf untouched in SINGLE |
| Sender.RetransmitScan | QSP/qsp.c:333-343 | one timeout scan re-sends exactly the nodes with `ts + 200 < now` (u32), in order, with unchanged header and payload, and restamps only those |
| Sender.Retransmit | QSP/qsp.c:333-343 | the scan keeps snd_buf's length and every node's header and payload, restamps exactly the overdue nodes, and changes nothing else in the session |
| Ack.FirstWithFrg | QSP/qsp.c:100-105 | the index found is that of the first node carrying the fragment number, or the queue length when no node does |
| Ack.ParseAckRemovesFirst | QSP/qsp.c:93-112 | `Ack.ParseAck` (qsp_parse_ack) unlinks exactly the first snd_buf node with that `frg` and keeps every other node in order; without one, snd_buf is unchanged |
| Ack.AckRemovesAtMostOne | QSP/qsp.c:93-112 | an ACK removes at most one node, exactly one iff some node carries the number, and every node removed carries it |
| Ack.RespondAck | QSP/qsp.c:115-149 | HALF: one 24-byte ACK echoing conv, frg and mode, with `sn = 1`, `len = 0`, the version and the clock; WEAK: the single byte `frg mod 256`; any other mode: nothing |
| Ack.AckByte | QSP/qsp.c:139 | the one-byte ACK is the fragment number itself when it is below 256 |
| Ack.RequestAgain | QSP/qsp.c:152-170 | an AGAIN is 24 bytes naming the requested fragment, with the session's conv, mode and version, `sn = 1`, `len = 0` and the clock |
| Ack.WeakAckRemovesItsFragment | QSP/qsp.c:137-141 | the one-byte ACK for fragment `i` of an accepted WEAK payload removes exactly that fragment from the sender's chain |
| Receiver.Bootstrap | QSP/qsp.c:213-214 | when `rcv_nxt` is 0 and `sn - frg == 1` (u32), `rcv_nxt` becomes the segment's `frg`; in every other case it is unchanged |
| Receiver.ScanBack | QSP/qsp.c:217-226 | the backward scan matches iff some node below the start position has the same `sn`; it then stops on the last such node; with no match its cursor ends on the list head |
| Receiver.InsertAfter | QSP/qsp.c:235-236 | the new node lands at the index right after the cursor (index 0 for the list head); the nodes up to the cursor keep their places and the rest follow the new node in their old order |
| Receiver.InsertAfterAddsOne | QSP/queue.h:70-72 | inserting after any cursor adds exactly the new node: the multiset of nodes grows by that node and nothing else is added or lost |
| Receiver.Admit | QSP/qsp.c:202-238 | a segment is a repeat iff its (frg, sn, ts) equals `last` or a node with equal `sn` waits in rcv_buf; `last` is updated unless the first test matched; a repeat leaves rcv_buf unchanged; a fresh node goes to its front, because the scan found no match and so left its cursor on the head |
| Receiver.DrainLoop | QSP/qsp.c:240-257 | the drain moves a prefix of rcv_buf, in order, to the tail of rcv_queue; those nodes carry `rcv_nxt, rcv_nxt-1, ...` (u32); `rcv_nxt` drops by the count moved; it stops at an empty buffer or a head that is not next; the node count is conserved |
| Receiver.Drain | QSP/qsp.c:240-257 | the drain on the session changes only rcv_buf, rcv_queue and rcv_nxt, and conserves the node count |
| Receiver.ParseData | QSP/qsp.c:197-260 | the receive queues gain exactly one node unless the segment is a repeat; the repeat test and the update of `last` are as in Admit; the send side is untouched; well-formed nodes stay well-formed |
| Receiver.ParseDataTwice | QSP/qsp.c:207-210 | the same node parsed twice in a row is a repeat the second time and adds no node |
| Receiver.SiblingFragmentDropped | QSP/qsp.c:217-226 | while any node with the same fragment count waits in rcv_buf, a new fragment is dropped as a repeat |
| Receiver.LostFirstFragmentStallsMessage | QSP/qsp.c:204-257 | with fragment 2 of 3 lost, fragment 1 waits in rcv_buf and a fresh fragment 0 is then dropped |
| Receiver.DuplicateFragmentRebootstraps | QSP/qsp.c:207-257 | fragment 1 of 2 drains and `rcv_nxt` returns to 0; a second copy of it is a repeat but sets `rcv_nxt` to 1; fragment 0 then waits in rcv_buf |
| Receiver.Push | QSP/qsp.c:412-453 | a PUSH is parsed; in HALF mode an AGAIN for `rcv_nxt` goes out when more than two nodes wait, then the ACK; the loop ends, with `rcv_nxt` reset to 0, exactly when `rcv_nxt` is 0xFFFFFFFF after the parse |
| Receiver.Again | QSP/qsp.c:454-466 | a matching head of snd_buf is re-sent and restamped and the loop ends; another head spins forever; an empty snd_buf is undefined; only the head's send time can change |
| Receiver.Segment | QSP/qsp.c:377-472 | a foreign conv is -2 and an unknown command -3, both with no state change and nothing sent; an ACK removes its fragment from snd_buf and ends the loop; a PUSH whose payload overruns the 4200-byte buffer is undefined, otherwise it is handled by `Push` on a node owning exactly `len` payload bytes; an AGAIN is handled by `Again`; only a PUSH lets the loop continue |
| Receiver.Dispatch | QSP/qsp.c:358-476 | a negative read is -1 with nothing changed, an empty read ends the loop, a one-byte read is a WEAK ACK for that byte, a longer one is a segment decoded from the buffer; no error path changes the session |
| Receiver.DispatchKeepsWellFormed | QSP/qsp.c:358-476 | every datagram leaves a well-formed session well-formed: a new node owns exactly `len` payload bytes |
| Receiver.RecvFlush | QSP/qsp.c:351-480 | the loop reads datagrams until one whose pass does not ask for more (nothing left to read, an error, an ACK, an AGAIN, or a PUSH that completed a message) and returns that pass's result; after a pass that asks for more, the loop goes on from that pass's session with the next datagram, and that pass's output comes first in the result; with nothing to read it returns 0 and changes nothing |
| Receiver.RecvFlushKeepsWellFormed | QSP/qsp.c:351-480 | the receive loop keeps a well-formed session well-formed |
| Receiver.MessageEnd | QSP/qsp.c:280-284 | the first message is the nodes up to and including the first fragment 0, or the whole queue when there is none |
| Receiver.PeeksizeMeasuresMessage | QSP/qsp.c:263-287 | `Receiver.Peeksize` (qsp_peeksize) is the byte count of the payloads of the first message in rcv_queue (0 for an empty queue) |
| Receiver.Recv | QSP/qsp.c:699-738 | -3 with nothing consumed iff the first message exceeds `abs(len)`; otherwise the bytes returned are that message's payloads in order, the count equals the peeksize, and the nodes are removed unless `len < 0` |
| IQueue.InitIsEmpty | QSP/queue.h:44-45 | IQUEUE_INIT yields an empty list, and IQUEUE_IS_EMPTY holds of a list iff it has no element (line 93) |
| IQueue.BackLinks | QSP/queue.h:30-32 | on a ring every cell's successor points back at it (`x.next.prev == x`) |
| IQueue.AddFront | QSP/queue.h:70-72 | IQUEUE_ADD puts a fresh cell right after the head, the rest unchanged in order |
| IQueue.AddBack | QSP/queue.h:75-77 | IQUEUE_ADD_TAIL puts a fresh cell right before the head, at the back, the rest unchanged in order |
| IQueue.DelRemoves | QSP/queue.h:83-86 | IQUEUE_DEL removes exactly that element, keeps the others in order, and nulls its links |
| IQueue.DelInitRemoves | QSP/queue.h:89-90 | IQUEUE_DEL_INIT removes the element as IQUEUE_DEL does and leaves it an empty list of its own |
| IQueue.Foreach | QSP/queue.h:114-115 | iqueue_foreach_entry visits every element once, front to back, and stops back at the head |
| IQueue.SplicePrepends | QSP/queue.h:118-126 | iqueue_splice changes nothing for an empty list, and otherwise puts the list's elements, in order, in front of the head's |
| IQueue.SpliceInitEmpties | QSP/queue.h:129-130 | iqueue_splice_init splices as iqueue_splice does and leaves the list empty |
| IQueue.AddFrame | QSP/queue.h:70-72 | IQUEUE_ADD leaves intact every list that shares no cell with the target list or the new node |
| IQueue.AddTailFrame | QSP/queue.h:75-77 | IQUEUE_ADD_TAIL leaves intact every list that shares no cell with the target list or the new node |
| IQueue.DelFrame | QSP/queue.h:83-86 | IQUEUE_DEL leaves intact every list that shares no cell with the one it removes from |
| IQueue.SpliceFrame | QSP/queue.h:118-126 | iqueue_splice leaves intact every third list apart from both lists |
| IQueue.MoveFrontToTail | QSP/qsp.c:243-248 | unlinking the front node of one list and adding it at the tail of a separate list removes it from the first and appends it to the second, both staying well-linked |
| Delivery.DispatchReadsWire | QSP/qsp.c:384-429 | a transmitted PUSH of this conversation is decoded back into the sender's header and payload (ver aside) and parsed |
| Delivery.HalfAckRoundTrip | QSP/qsp.c:120-135 | the HALF ACK for a segment, arriving at its sender, removes that fragment from snd_buf and ends the loop |
| Delivery.WeakAckRoundTrip | QSP/qsp.c:370-376 | the WEAK one-byte ACK, arriving at the sender, acts as `ParseAck` of `frg mod 256`: it removes the first node whose `frg` equals that byte |
| Delivery.DeliverCountdown | QSP/qsp.c:412-452 | a countdown of segments arriving in order at a receiver expecting it lands in rcv_queue in order; rcv_buf stays empty, `rcv_nxt` returns to 0, the loop returns 0, the send side is untouched |
| Delivery.InputRunsDry | QSP/qsp.c:366-369 | a lone datagram carrying the expected segment other than fragment 0 puts it in rcv_queue, and the exhausted input then ends the loop with the message incomplete |
| Delivery.PartialMessageDelivered | QSP/qsp.c:366-369 | when the input runs dry after fragment 1 of a two-fragment message, the receive loop ends with just that fragment in rcv_queue, and the queue reads as one complete three-byte message |
| Delivery.SendThenReceive | QSP/qsp.c:602-738 | what `qsp_send` transmits, read in order by a fresh receiver of the same conversation whose last header is not taken for a repeat of the first fragment, forms the first message in rcv_queue; its payloads are the original payload and its peeksize is the payload length |
| Delivery.SentMessagesCarryFragments | QSP/qsp.c:173-193 | the wire messages of a HALF or WEAK send carry exactly the payload's fragments, in order |
| Delivery.ThreeThousandBytes | QSP/qsp.c:620-652 | 3000 bytes on a new session give three fragments numbered 2, 1, 0 of 1376, 1376 and 248 bytes with `sn = 3` |
| Delivery.OneByteWeakAck | QSP/qsp.c:137-141 | a one-byte WEAK send is one fragment numbered 0, and its ACK is the single byte 0 |

## Left out

- The ACK-wait loop of `qsp_send_flush` (QSP/qsp.c:326-344) busy-polls a real clock and need not terminate. Only one timeout scan is modelled (`Sender.Retransmit`). `Sender.Send` stops after the `snd_queue` pass.
- `qsp_recv` on an empty `rcv_queue` re-runs the flush while `rcv_queue` stays empty (QSP/qsp.c:692-696). `Receiver.Recv` requires a non-empty queue and starts after the flush.
- Receiver.Push: reads the mode of a node that `qsp_parse_data` may already have freed as a repeat (QSP/qsp.c:432, 444). The model reads the node's mode as intended.
- `qsp_respond_ack` and `qsp_request_again` build the outgoing header in the scratch buffer it is encoded into (QSP/qsp.c:122-135, 156-169). The model encodes a header value.
- Receiver.Push: the transport always accepts output, so the -2 return after a failing ACK send (QSP/qsp.c:444-445) is not reached.
- The node counters `nsnd_que`, `nsnd_buf`, `nrcv_buf`, `nrcv_que` and the unused `snd_nxt` are not modelled. `nsnd_buf` is decremented but never incremented. Counts are the queue lengths.
- `qsp_release` frees only the scratch buffer and the session. Memory is not modelled, so there is nothing to state.
- Allocation through the malloc/free hooks, and the -3 for a failed allocation in `qsp_send`, are not modelled. Memory is unbounded here.
- The callbacks `qsp_setinput`, `qsp_setoutput`, `qsp_setsystime` and their null checks, plus `qsp_input`/`qsp_output`/`qsp_click`, are not modelled. The clock is the parameter `now`, input is the datagram list, and output is the returned message list.
- Sender.Fragment: the source samples the clock once per fragment. The model takes one sample `now` for the whole call.
- Sender.TransmitPass, Sender.Retransmit, Receiver.Again: every `qsp_send_node` samples the clock afresh (QSP/qsp.c:190), and so does each node of the timeout scan (QSP/qsp.c:337). The model uses one `now` per call.
- Ack.RespondAck, Ack.RequestAgain: each samples the clock itself (QSP/qsp.c:125, 160). The model passes in the caller's `now`.
- Receiver.RecvFlush: the whole flush, every datagram included, uses one clock sample `now`.
- Sender.Send: the null-buffer check (-1) has no counterpart, since a sequence is never null.
- Receiver.Recv: the -2 branch (negative peeksize) cannot happen with natural-number sizes. `-len` for the most negative `int` is C overflow, and the model negates it exactly.
- Receiver.Again: the lookup loop never advances. It is modelled as written (`Spin`, `Undefined`), not as the intended search of the whole `snd_buf`.
- `qsp_version`, `qsp_print`, `test()` and the log output have no protocol state.
- The bodies of `qsp_encode*`/`qsp_decode*` and `_itimediff` are not part of this model. Only the declared lsb-first contract is modelled.
- QSP/main.cpp, QSP/wrap.c, QSP/wrap.h, QSP/log.c, QSP/log.h, QSP/allocator.h, QSP/systime.h and QSP/typedef.h are not part of this model: they are the demo program, socket wrappers, logging, allocator hooks, clock and platform typedefs.

=== FILE: ack.dfy ===
/** Acknowledgements in qsp.c: removing an acknowledged fragment from snd_buf
    (qsp_parse_ack), and the two control messages the receiver builds, the ACK
    (qsp_respond_ack) and the loss report AGAIN (qsp_request_again). */
module Ack {
  import opened Bytes
  import opened Protocol
  import opened Codec
  import opened Sender

  /** Index of the first node of `q` carrying fragment number `frg`, or `|q|` when none does. */
  function FirstWithFrg(q: seq<Node>, frg: u32): (k: nat)
    ensures k <= |q|
    ensures k < |q| ==> q[k].seg.frg == frg
    ensures forall i | 0 <= i < k :: q[i].seg.frg != frg
    decreases |q|
  {
    if q == [] then 0
    else if q[0].seg.frg == frg then 0
    else 1 + FirstWithFrg(q[1..], frg)
  }

  /** qsp_parse_ack: walk snd_buf front to back and unlink the first node whose `frg`
      matches, then stop. */
  function ParseAck(q: seq<Node>, frg: u32): seq<Node>
    decreases |q|
  {
    if q == [] then []
    else if q[0].seg.frg == frg then q[1..]
    else [q[0]] + ParseAck(q[1..], frg)
  }

  /** An ACK unlinks exactly the first node carrying its fragment number and keeps every
      other node in place; without such a node snd_buf is unchanged. */
  lemma {:induction false} ParseAckRemovesFirst(q: seq<Node>, frg: u32)
    ensures var k := FirstWithFrg(q, frg);
      ParseAck(q, frg) == if k < |q| then q[..k] + q[k + 1..] else q
    decreases |q|
  {
    if q != [] && q[0].seg.frg != frg {
      ParseAckRemovesFirst(q[1..], frg);
      var k := FirstWithFrg(q[1..], frg);
      assert FirstWithFrg(q, frg) == k + 1;
      if k < |q| - 1 {
        assert q[1..][..k] == q[1..k + 1] && q[1..][k + 1..] == q[k + 2..];
        assert [q[0]] + q[1..k + 1] == q[..k + 1];
      } else {
        assert [q[0]] + q[1..] == q;
      }
    }
  }

  /** One ACK removes at most one node, and exactly one when some node carries the
      acknowledged fragment number; all nodes removed carry it; nothing is reordered. */
  lemma {:induction false} AckRemovesAtMostOne(q: seq<Node>, frg: u32)
    ensures var r := ParseAck(q, frg);
      && (|r| == |q| <==> forall i | 0 <= i < |q| :: q[i].seg.frg != frg)
      && (|r| == |q| || |r| == |q| - 1)
      && multiset(r) <= multiset(q)
      && forall n | n in multiset(q) - multiset(r) :: n.seg.frg == frg
  {
    var k := FirstWithFrg(q, frg);
    var r := ParseAck(q, frg);
    ParseAckRemovesFirst(q, frg);
    if k < |q| {
      assert q == q[..k] + [q[k]] + q[k + 1..];
      assert multiset(q) == multiset(q[..k]) + multiset{q[k]} + multiset(q[k + 1..]);
      assert multiset(q) - multiset(r) == multiset{q[k]};
    }
  }

  // ---------------------------------------------------------------------
  // qsp_respond_ack
  // ---------------------------------------------------------------------

  /** The header of the HALF-mode ACK for segment `h`: conversation, fragment number and
      mode echoed, `sn = 1`, no payload, the protocol version, and the clock sample. */
  function AckHeader(h: Header, now: u32): Header
  {
    Header(h.conv, h.frg, now, 1, CMD_ACK, h.mode, VERSION, 0)
  }

  /** The one-byte WEAK-mode ACK: the fragment number truncated to 8 bits. */
  function AckByte(frg: u32): (b: u8)
    ensures frg < 0x100 ==> b == frg
  {
    frg % 0x100
  }

  /** qsp_respond_ack for received node `n`: the messages handed to the transport, chosen by
      the mode the segment carries (not the session's mode). */
  function RespondAck(n: Node, now: u32): (out: seq<seq<u8>>)
    ensures n.seg.mode == MODE_HALF ==>
              && |out| == 1 && |out[0]| == HEAD_SIZE
              && DecodeHeader(out[0]) == Header(n.seg.conv, n.seg.frg, now, 1, CMD_ACK,
                                                n.seg.mode, VERSION, 0)
    ensures n.seg.mode == MODE_WEAK ==> out == [[AckByte(n.seg.frg)]]
    ensures n.seg.mode != MODE_HALF && n.seg.mode != MODE_WEAK ==> out == []
  {
    if n.seg.mode == MODE_HALF then
      var h := AckHeader(n.seg, now);
      EncodeLayout(h);
      DecodeEncode(h, []);
      assert EncodeHeader(h) + [] == EncodeHeader(h);
      [EncodeHeader(h)]
    else if n.seg.mode == MODE_WEAK then
      assert Put8([], AckByte(n.seg.frg)) == [AckByte(n.seg.frg)];
      [Put8([], AckByte(n.seg.frg))]
    else
      []
  }

  // ---------------------------------------------------------------------
  // qsp_request_again
  // ---------------------------------------------------------------------

  /** qsp_request_again: a header-only AGAIN naming fragment `frg`, carrying the session's
      conversation, mode and version (narrowed to the u16 fields) and the clock sample. */
  function RequestAgain(s: Session, frg: u32, now: u32): (m: seq<u8>)
    ensures |m| == HEAD_SIZE
    ensures DecodeHeader(m) == Header(s.conv, frg, now, 1, CMD_AGAIN,
                                      Narrow16(s.mode), Narrow16(s.ver), 0)
  {
    var h := Header(s.conv, frg, now, 1, CMD_AGAIN, Narrow16(s.mode), Narrow16(s.ver), 0);
    EncodeLayout(h);
    DecodeEncode(h, []);
    assert EncodeHeader(h) + [] == EncodeHeader(h);
    EncodeHeader(h)
  }

  /** In a fragment chain the fragment numbers are distinct, so the node a number names is
      the only one carrying it. */
  lemma {:induction false} ChainFindsItself(q: seq<Node>, conv: u32, i: nat)
    requires Chain(q, conv) && i < |q|
    ensures FirstWithFrg(q, q[i].seg.frg) == i
  {
  }

  /** The one-byte ACK a WEAK receiver returns for fragment `i` of an accepted payload
      removes exactly that fragment from the sender's copy of the chain. */
  lemma WeakAckRemovesItsFragment(s: Session, payload: seq<u8>, now: u32, i: nat)
    requires WellFormed(s) && |payload| <= 256 * s.mss
    requires i < |Fragment(s, payload, now)|
    ensures var q := Fragment(s, payload, now);
      ParseAck(q, AckByte(q[i].seg.frg)) == q[..i] + q[i + 1..]
  {
    var q := Fragment(s, payload, now);
    FragmentShape(s, payload, now);
    WeakFragmentsFitOneByte(s, payload, now);
    ChainFindsItself(q, s.conv, i);
    ParseAckRemovesFirst(q, AckByte(q[i].seg.frg));
  }
}

=== FILE: bytes.dfy ===
/** Fixed-width integers and the portable byte codec of network.h.

    A cursor-based encoder `qsp_encodeNu(p, v)` writes `v` least-significant
    byte first at `p` and returns `p` advanced past it; here the buffer written
    so far is a sequence and encoding appends to it.  The decoder reads at a
    position and returns the value with the advanced position. */
module Bytes {

  type u8 = x: int | 0 <= x < 0x100
  type u16 = x: int | 0 <= x < 0x1_0000
  type u32 = x: int | 0 <= x < 0x1_0000_0000
  type i32 = x: int | -0x8000_0000 <= x < 0x8000_0000

  /** Unsigned 32-bit subtraction with wrap-around, as C computes `a - b` on IUINT32. */
  function Sub32(a: u32, b: u32): (r: u32)
    ensures r == a - b || r == a - b + 0x1_0000_0000
  {
    (a - b) % 0x1_0000_0000
  }

  /** Unsigned 32-bit addition with wrap-around. */
  function Add32(a: u32, b: u32): (r: u32)
    ensures r == a + b || r == a + b - 0x1_0000_0000
  {
    (a + b) % 0x1_0000_0000
  }

  // ---------------------------------------------------------------------
  // qsp_encode8u / qsp_decode8u
  // ---------------------------------------------------------------------

  function Put8(buf: seq<u8>, c: u8): seq<u8>
  {
    buf + [c]
  }

  function Get8(buf: seq<u8>, p: nat): (u8, nat)
    requires p + 1 <= |buf|
  {
    (buf[p], p + 1)
  }

  /** Decoding one byte at the cursor returns what was encoded there and advances by one. */
  lemma Get8Put8(pre: seq<u8>, c: u8, rest: seq<u8>)
    ensures |Put8(pre, c)| == |pre| + 1
    ensures Get8(Put8(pre, c) + rest, |pre|) == (c, |pre| + 1)
  {
  }

  // ---------------------------------------------------------------------
  // qsp_encode16u / qsp_decode16u (lsb first)
  // ---------------------------------------------------------------------

  /** The two bytes of `w`, least significant first. */
  function Le16(w: u16): seq<u8>
  {
    [w % 0x100, w / 0x100]
  }

  function Put16(buf: seq<u8>, w: u16): seq<u8>
  {
    buf + Le16(w)
  }

  function Get16(buf: seq<u8>, p: nat): (u16, nat)
    requires p + 2 <= |buf|
  {
    (buf[p] as int + 0x100 * buf[p + 1] as int, p + 2)
  }

  /** Wherever the two little-endian bytes of `w` sit, the 16-bit decoder reads `w` back
      and advances the cursor by two. */
  lemma Get16Le16(buf: seq<u8>, p: nat, w: u16)
    requires p + 2 <= |buf| && buf[p..p + 2] == Le16(w)
    ensures Get16(buf, p) == (w, p + 2)
  {
    assert buf[p] == buf[p..p + 2][0] && buf[p + 1] == buf[p..p + 2][1];
  }

  /** The 16-bit encoder appends two bytes and leaves what was written before alone; the
      decoder at the same cursor recovers the value. */
  lemma Get16Put16(pre: seq<u8>, w: u16, rest: seq<u8>)
    ensures |Put16(pre, w)| == |pre| + 2 && Put16(pre, w)[..|pre|] == pre
    ensures Get16(Put16(pre, w) + rest, |pre|) == (w, |pre| + 2)
  {
    var buf := Put16(pre, w) + rest;
    assert buf[|pre|..|pre| + 2] == Le16(w);
    Get16Le16(buf, |pre|, w);
  }

  // ---------------------------------------------------------------------
  // qsp_encode32u / qsp_decode32u (lsb first)
  // ---------------------------------------------------------------------

  /** The four bytes of `l`, least significant first. */
  function Le32(l: u32): seq<u8>
  {
    [l % 0x100, (l / 0x100) % 0x100, (l / 0x1_0000) % 0x100, l / 0x100_0000]
  }

  function Put32(buf: seq<u8>, l: u32): seq<u8>
  {
    Put16(Put16(buf, l % 0x1_0000), l / 0x1_0000)
  }

  function Get32(buf: seq<u8>, p: nat): (u32, nat)
    requires p + 4 <= |buf|
  {
    var (lo, q) := Get16(buf, p);
    var (hi, q') := Get16(buf, q);
    (lo + 0x1_0000 * hi, q')
  }

  /** The 32-bit encoder appends exactly the four little-endian bytes of the value. */
  lemma {:induction false} Put32Le32(pre: seq<u8>, l: u32)
    ensures Put32(pre, l) == pre + Le32(l)
  {
    SplitBytes(l);
  }

  /** Wherever the four little-endian bytes of `l` sit, the 32-bit decoder reads `l` back
      and advances the cursor by four. */
  lemma {:induction false} Get32Le32(buf: seq<u8>, p: nat, l: u32)
    requires p + 4 <= |buf| && buf[p..p + 4] == Le32(l)
    ensures Get32(buf, p) == (l, p + 4)
  {
    SplitBytes(l);
    var lo: u16 := l % 0x1_0000;
    var hi: u16 := l / 0x1_0000;
    assert buf[p..p + 2] == buf[p..p + 4][..2] == Le16(lo);
    assert buf[p + 2..p + 4] == buf[p..p + 4][2..] == Le16(hi);
    Get16Le16(buf, p, lo);
    Get16Le16(buf, p + 2, hi);
  }

  /** The 32-bit decoder at the cursor where a value was encoded recovers it and advances
      by four, whatever follows. */
  lemma {:induction false} Get32Put32(pre: seq<u8>, l: u32, rest: seq<u8>)
    ensures |Put32(pre, l)| == |pre| + 4 && Put32(pre, l)[..|pre|] == pre
    ensures Get32(Put32(pre, l) + rest, |pre|) == (l, |pre| + 4)
  {
    Put32Le32(pre, l);
    var buf := Put32(pre, l) + rest;
    assert buf[|pre|..|pre| + 4] == Le32(l);
    Get32Le32(buf, |pre|, l);
  }

  /** Arithmetic behind the 32-bit lemmas: the two 16-bit halves of `l` carry its four bytes. */
  lemma SplitBytes(l: u32)
    ensures l % 0x1_0000 + 0x1_0000 * (l / 0x1_0000) == l
    ensures (l % 0x1_0000) % 0x100 == l % 0x100
    ensures (l % 0x1_0000) / 0x100 == (l / 0x100) % 0x100
    ensures (l / 0x1_0000) / 0x100 == l / 0x100_0000
  {
    var hi := l / 0x1_0000;
    var lo := l % 0x1_0000;
    var a := lo / 0x100;
    var b := lo % 0x100;
    assert l == 0x1_0000 * hi + 0x100 * a + b;
    assert l / 0x100 == 0x100 * hi + a;
    assert l % 0x100 == b;
    assert l / 0x100_0000 == hi / 0x100;
  }

  // ---------------------------------------------------------------------
  // _imin_ / _imax_ / _ibound_
  // ---------------------------------------------------------------------

  /** The smaller of two unbounded integers, for sizes and lengths (the slicing loop of
      qsp_send measures `min(remaining, mss)` on sequence lengths, not on u32 values). */
  function Min(a: int, b: int): (r: int)
    ensures r <= a && r <= b
    ensures r == a || r == b
  {
    if a <= b then a else b
  }

  /** `_imin_`, the u32 macro: `Min` restricted to u32, so the concept is defined once. */
  function IMin(a: u32, b: u32): (r: u32)
    ensures r <= a && r <= b
    ensures r == a || r == b
  {
    Min(a, b)
  }

  function IMax(a: u32, b: u32): (r: u32)
    ensures r >= a && r >= b
    ensures r == a || r == b
  {
    if a >= b then a else b
  }

  /** `middle` clamped into `[lower, upper]`. */
  function IBound(lower: u32, middle: u32, upper: u32): (r: u32)
    ensures lower <= upper ==> lower <= r <= upper
    ensures lower <= middle <= upper ==> r == middle
    ensures lower <= upper && middle < lower ==> r == lower
    ensures lower <= upper && upper < middle ==> r == upper
  {
    IMin(IMax(lower, middle), upper)
  }
}

=== FILE: codec.dfy ===
/** The segment header codec: qsp_encode_seg and the matching decode sequence at the top
    of the receive loop in qsp_recv_flush.  Both visit the eight fields in the order
    conv, frg, ts, sn (u32) then cmd, mode, ver, len (u16). */
module Codec {
  import opened Bytes
  import opened Protocol

  /** qsp_encode_seg, writing from the start of the buffer. */
  function EncodeHeader(h: Header): seq<u8>
  {
    var p := Put32([], h.conv);
    var p := Put32(p, h.frg);
    var p := Put32(p, h.ts);
    var p := Put32(p, h.sn);
    var p := Put16(p, h.cmd);
    var p := Put16(p, h.mode);
    var p := Put16(p, h.ver);
    Put16(p, h.len)
  }

  /** The decode block of qsp_recv_flush, reading from the start of the buffer. */
  function DecodeHeader(buf: seq<u8>): Header
    requires |buf| >= HEAD_SIZE
  {
    var (conv, p) := Get32(buf, 0);
    var (frg, p) := Get32(buf, p);
    var (ts, p) := Get32(buf, p);
    var (sn, p) := Get32(buf, p);
    var (cmd, p) := Get16(buf, p);
    var (mode, p) := Get16(buf, p);
    var (ver, p) := Get16(buf, p);
    var (len, _) := Get16(buf, p);
    Header(conv, frg, ts, sn, cmd, mode, ver, len)
  }

  /** The bytes of an encoded header, field by field. */
  function HeaderBytes(h: Header): seq<u8>
  {
    Le32(h.conv) + Le32(h.frg) + Le32(h.ts) + Le32(h.sn)
      + Le16(h.cmd) + Le16(h.mode) + Le16(h.ver) + Le16(h.len)
  }

  /** qsp_encode_seg writes each field little-endian, in declaration order, 24 bytes in all. */
  lemma {:induction false} EncodeLayout(h: Header)
    ensures EncodeHeader(h) == HeaderBytes(h)
    ensures |EncodeHeader(h)| == HEAD_SIZE
  {
    Put32Le32([], h.conv);
    Put32Le32(Le32(h.conv), h.frg);
    Put32Le32(Le32(h.conv) + Le32(h.frg), h.ts);
    Put32Le32(Le32(h.conv) + Le32(h.frg) + Le32(h.ts), h.sn);
  }

  /** Decoding the first 24 bytes of any buffer that starts with an encoded header returns
      the same eight fields. */
  lemma {:induction false} DecodeEncode(h: Header, rest: seq<u8>)
    ensures |EncodeHeader(h) + rest| >= HEAD_SIZE
    ensures DecodeHeader(EncodeHeader(h) + rest) == h
  {
    EncodeLayout(h);
    var buf := EncodeHeader(h) + rest;
    assert buf[0..4] == Le32(h.conv);
    assert buf[4..8] == Le32(h.frg);
    assert buf[8..12] == Le32(h.ts);
    assert buf[12..16] == Le32(h.sn);
    assert buf[16..18] == Le16(h.cmd);
    assert buf[18..20] == Le16(h.mode);
    assert buf[20..22] == Le16(h.ver);
    assert buf[22..24] == Le16(h.len);
    Get32Le32(buf, 0, h.conv);
    Get32Le32(buf, 4, h.frg);
    Get32Le32(buf, 8, h.ts);
    Get32Le32(buf, 12, h.sn);
    Get16Le16(buf, 16, h.cmd);
    Get16Le16(buf, 18, h.mode);
    Get16Le16(buf, 20, h.ver);
    Get16Le16(buf, 22, h.len);
  }

  /** Distinct headers never share an encoding. */
  lemma EncodeInjective(h1: Header, h2: Header)
    requires EncodeHeader(h1) == EncodeHeader(h2)
    ensures h1 == h2
  {
    DecodeEncode(h1, []);
    DecodeEncode(h2, []);
  }

  /** The bytes qsp_send_node hands to the transport: the encoded header, then `len`
      payload bytes. */
  function Wire(n: Node): seq<u8>
  {
    EncodeHeader(n.seg) + n.data
  }

  /** A transmitted node is header-sized plus its payload, and its header and payload can
      be read back from the wire bytes. */
  lemma {:induction false} WireParts(n: Node)
    requires NodeOk(n)
    ensures |Wire(n)| == HEAD_SIZE + n.seg.len
    ensures DecodeHeader(Wire(n)) == n.seg
    ensures Wire(n)[HEAD_SIZE..] == n.data
  {
    EncodeLayout(n.seg);
    DecodeEncode(n.seg, n.data);
  }
}

=== FILE: delivery.dfy ===
/** End to end: what one side's qsp_send hands to the transport, read back by the other
    side's qsp_recv_flush, reassembles into the original payload, and the acknowledgements
    the receiver returns remove the fragments from the sender's snd_buf. */
module Delivery {
  import opened Bytes
  import opened Protocol
  import opened Codec
  import opened Sender
  import opened Ack
  import opened Receiver

  /** Datagram `d` holds the wire bytes of `n`: qsp_input returned their length and they sit
      at the start of the scratch buffer (what follows is left over from earlier). */
  predicate Carries(d: Datagram, n: Node)
  {
    && |d.buff| == BUF_SIZE && d.ret <= BUF_SIZE
    && d.ret == |Wire(n)| && d.buff[..d.ret] == Wire(n)
  }

  /** A PUSH segment of this conversation with at most one segment's payload. */
  predicate Deliverable(n: Node, conv: u32)
  {
    NodeOk(n) && n.seg.len <= MSS && n.seg.conv == conv && n.seg.cmd == CMD_PUSH
  }

  /** A scratch buffer holding a transmitted node decodes to that node's header, and its
      payload sits right after the header. */
  lemma {:induction false} CarriedParts(n: Node, d: Datagram)
    requires NodeOk(n) && Carries(d, n)
    ensures DecodeHeader(d.buff) == n.seg
    ensures d.buff[HEAD_SIZE..HEAD_SIZE + n.seg.len] == n.data
  {
    var rest := d.buff[d.ret..];
    assert d.buff == EncodeHeader(n.seg) + (n.data + rest) by {
      assert d.buff == Wire(n) + rest;
    }
    assert DecodeHeader(d.buff) == n.seg by {
      DecodeEncode(n.seg, n.data + rest);
    }
    assert d.buff[HEAD_SIZE..HEAD_SIZE + n.seg.len] == n.data by {
      EncodeLayout(n.seg);
    }
  }

  /** The receive loop decodes a transmitted PUSH back into the sender's header and payload
      (less the `ver` field, which is not copied) and parses it. */
  lemma {:induction false} DispatchReadsWire(s: Session, n: Node, d: Datagram, now: u32)
    requires Deliverable(n, s.conv) && Carries(d, n)
    ensures Dispatch(s, d.buff, d.ret, now) == Push(s, Inbound(n.seg, n.data), now)
  {
    CarriedParts(n, d);
    var h := DecodeHeader(d.buff);
    assert Dispatch(s, d.buff, d.ret, now) == Segment(s, h, d.buff, now);
    assert Segment(s, h, d.buff, now)
        == Push(s, Inbound(h, d.buff[HEAD_SIZE..HEAD_SIZE + h.len]), now);
  }

  /** The HALF-mode ACK for a received segment, arriving back at the sender of this
      conversation, removes the acknowledged fragment from snd_buf and ends the loop. */
  lemma {:induction false} HalfAckRoundTrip(s: Session, n: Node, d: Datagram, now: u32, ackTime: u32)
    requires n.seg.mode == MODE_HALF && n.seg.conv == s.conv
    requires |d.buff| == BUF_SIZE && d.ret == HEAD_SIZE
    requires d.buff[..HEAD_SIZE] == RespondAck(n, ackTime)[0]
    ensures Dispatch(s, d.buff, d.ret, now)
            == Step(s.(sndBuf := ParseAck(s.sndBuf, n.seg.frg)), [], Done)
  {
    var m := RespondAck(n, ackTime)[0];
    var h := AckHeader(n.seg, ackTime);
    assert m == EncodeHeader(h);
    var rest := d.buff[HEAD_SIZE..];
    assert d.buff == EncodeHeader(h) + rest;
    DecodeEncode(h, rest);
  }

  /** The WEAK-mode one-byte ACK, arriving back at the sender, removes from snd_buf the first
      node whose frg equals the byte. */
  lemma WeakAckRoundTrip(s: Session, n: Node, d: Datagram, now: u32, ackTime: u32)
    requires n.seg.mode == MODE_WEAK
    requires |d.buff| == BUF_SIZE && d.ret == 1 && [d.buff[0]] == RespondAck(n, ackTime)[0]
    ensures Dispatch(s, d.buff, d.ret, now)
            == Step(s.(sndBuf := ParseAck(s.sndBuf, AckByte(n.seg.frg))), [], Done)
  {
  }

  // ---------------------------------------------------------------------
  // Reassembly of a fragment chain
  // ---------------------------------------------------------------------

  /** A countdown of deliverable segments: fragment numbers `|q| - 1, …, 1, 0` in order. */
  ghost predicate Countdown(q: seq<Node>, conv: u32)
  {
    && |q| < 0x1_0000_0000
    && forall i | 0 <= i < |q| :: q[i].seg.frg == |q| - 1 - i && Deliverable(q[i], conv)
  }

  /** `b` differs from `a` at most in the receiving state: rcv_queue, rcv_nxt and `last`
      (rcv_buf is stated separately where it matters). */
  predicate SendSideKept(a: Session, b: Session)
  {
    && b.conv == a.conv && b.mtu == a.mtu && b.mss == a.mss && b.mode == a.mode
    && b.ver == a.ver && b.sndQueue == a.sndQueue && b.sndBuf == a.sndBuf
  }

  /** The nodes the receiver builds from a sequence of transmitted nodes. */
  function Arrivals(q: seq<Node>): (r: seq<Node>)
    ensures |r| == |q|
    ensures forall i | 0 <= i < |q| :: r[i] == Inbound(q[i].seg, q[i].data)
    decreases |q|
  {
    if q == [] then []
    else
      var r := [Inbound(q[0].seg, q[0].data)] + Arrivals(q[1..]);
      assert forall i | 1 <= i < |q| :: q[i] == q[1..][i - 1];
      r
  }

  lemma ArrivalsCons(q: seq<Node>)
    requires q != []
    ensures Arrivals(q) == [Inbound(q[0].seg, q[0].data)] + Arrivals(q[1..])
  {
  }

  /** A fresh segment arriving at an empty rcv_buf when it is the one expected goes straight
      through to the tail of rcv_queue, and `rcv_nxt` moves to the fragment after it. */
  lemma {:induction false} InOrderArrival(s: Session, n: Node)
    requires s.rcvBuf == [] && !SameAsLast(s.last, n.seg) && Bootstrap(s.rcvNxt, n.seg) == n.seg.frg
    ensures var p := ParseData(s, n);
      && !p.repeat && p.s.rcvBuf == [] && p.s.rcvQueue == s.rcvQueue + [n]
      && p.s.rcvNxt == Sub32(n.seg.frg, 1) && p.s.last == n.seg
      && SendSideKept(s, p.s)
  {
    var a := Admit(s, n);
    assert !SnWaiting(s.rcvBuf, n.seg.sn);
    assert a.s.rcvBuf == [n] && a.s.rcvNxt == n.seg.frg;
    var r := DrainLoop(Reassembly(a.s.rcvBuf, a.s.rcvQueue, a.s.rcvNxt));
    assert DrainLoop(Reassembly([], a.s.rcvQueue + [n], Sub32(n.seg.frg, 1)))
        == Reassembly([], a.s.rcvQueue + [n], Sub32(n.seg.frg, 1));
    assert r == Reassembly([], s.rcvQueue + [n], Sub32(n.seg.frg, 1));
  }

  /** The PUSH branch for the expected segment at a receiver with nothing waiting in
      rcv_buf: the segment is appended to rcv_queue, and the loop ends (with `rcv_nxt` reset)
      exactly when it was fragment 0. */
  lemma {:induction false} ExpectedPush(s: Session, m: Node, now: u32)
    requires s.rcvBuf == [] && !SameAsLast(s.last, m.seg) && Bootstrap(s.rcvNxt, m.seg) == m.seg.frg
    ensures var st := Push(s, m, now);
      && st.s.rcvBuf == [] && st.s.rcvQueue == s.rcvQueue + [m] && st.s.last == m.seg
      && (m.seg.frg == 0 ==> st.flow == Done && st.s.rcvNxt == 0)
      && (m.seg.frg != 0 ==> st.flow == More && st.s.rcvNxt == m.seg.frg - 1)
      && SendSideKept(s, st.s)
  {
    InOrderArrival(s, m);
    var p := ParseData(s, m);
    var st := Push(s, m, now);
    if m.seg.frg == 0 {
      assert p.s.rcvNxt == 0xFFFF_FFFF;
      assert st.s == p.s.(rcvNxt := 0);
    } else {
      assert p.s.rcvNxt == m.seg.frg - 1;
      assert st.s == p.s;
    }
  }

  /** One datagram carrying the expected segment: as `ExpectedPush`, for the node the
      receive loop builds from the wire. */
  lemma {:induction false} ExpectedDatagram(s: Session, n: Node, d: Datagram, now: u32)
    requires Deliverable(n, s.conv) && Carries(d, n)
    requires s.rcvBuf == [] && !SameAsLast(s.last, n.seg) && Bootstrap(s.rcvNxt, n.seg) == n.seg.frg
    ensures var st := Dispatch(s, d.buff, d.ret, now);
      && st.s.rcvBuf == [] && st.s.rcvQueue == s.rcvQueue + [Inbound(n.seg, n.data)]
      && st.s.last == Inbound(n.seg, n.data).seg
      && (n.seg.frg == 0 ==> st.flow == Done && st.s.rcvNxt == 0)
      && (n.seg.frg != 0 ==> st.flow == More && st.s.rcvNxt == n.seg.frg - 1)
      && SendSideKept(s, st.s)
  {
    DispatchReadsWire(s, n, d, now);
    ExpectedPush(s, Inbound(n.seg, n.data), now);
  }

  /** The receive loop after a datagram that added `m` to rcv_queue and asked for more
      (`first`), followed by a run that added `tail` and finished (`rest`): the whole loop
      (`st`, which qsp_recv_flush composes from the two) added `[m] + tail` and finished. */
  lemma {:induction false} FlushThrough(s: Session, first: Step, rest: Step, st: Step,
                                        m: Node, tail: seq<Node>)
    requires first.s.rcvQueue == s.rcvQueue + [m] && SendSideKept(s, first.s)
    requires && rest.flow == Done && rest.s.rcvQueue == first.s.rcvQueue + tail
             && rest.s.rcvBuf == [] && rest.s.rcvNxt == 0 && SendSideKept(first.s, rest.s)
    requires st == Step(rest.s, first.out + rest.out, rest.flow)
    ensures && st.flow == Done && st.s.rcvQueue == s.rcvQueue + ([m] + tail)
            && st.s.rcvBuf == [] && st.s.rcvNxt == 0 && SendSideKept(s, st.s)
  {
    Associate(s.rcvQueue, [m], tail);
    KeptTransitive(s, first.s, rest.s);
  }

  lemma Associate(a: seq<Node>, b: seq<Node>, c: seq<Node>)
    ensures a + b + c == a + (b + c)
  {
  }

  lemma KeptTransitive(a: Session, b: Session, c: Session)
    requires SendSideKept(a, b) && SendSideKept(b, c)
    ensures SendSideKept(a, c)
  {
  }

  /** A countdown delivered in order, one datagram per segment, to a receiver with nothing
      waiting in rcv_buf that expects its first segment: the receive loop reads exactly those
      datagrams and returns 0, every segment lands in rcv_queue in order, rcv_buf stays empty,
      `rcv_nxt` is back at 0, and snd_buf is untouched. */
  lemma {:induction false} DeliverCountdown(s: Session, q: seq<Node>, inbox: seq<Datagram>, now: u32)
    requires q != [] && Countdown(q, s.conv)
    requires |inbox| == |q| && forall i | 0 <= i < |q| :: Carries(inbox[i], q[i])
    requires s.rcvBuf == [] && !SameAsLast(s.last, q[0].seg)
    requires Bootstrap(s.rcvNxt, q[0].seg) == q[0].seg.frg
    ensures InboxOk(inbox)
    ensures var st := RecvFlush(s, inbox, now);
      && st.flow == Done
      && st.s.rcvQueue == s.rcvQueue + Arrivals(q)
      && st.s.rcvBuf == [] && st.s.rcvNxt == 0
      && SendSideKept(s, st.s)
    decreases |q|
  {
    assert InboxOk(inbox);
    if |q| == 1 {
      DeliverLast(s, q, inbox, now);
    } else {
      var n := q[0];
      var m := Inbound(n.seg, n.data);
      var first := Dispatch(s, inbox[0].buff, inbox[0].ret, now);
      var q' := q[1..];
      CountdownHead(s, q, inbox, now);
      CountdownTail(q, inbox, s.conv);
      DeliverCountdown(first.s, q', inbox[1..], now);
      ArrivalsCons(q);
      var rest := RecvFlush(first.s, inbox[1..], now);
      FlushThrough(s, first, rest, RecvFlush(s, inbox, now), m, Arrivals(q'));
    }
  }

  /** The first segment of a countdown of more than one goes through to rcv_queue, asks for
      more, and leaves the receiver expecting the second. */
  lemma {:induction false} CountdownHead(s: Session, q: seq<Node>, inbox: seq<Datagram>, now: u32)
    requires |q| > 1 && Countdown(q, s.conv)
    requires |inbox| == |q| && InboxOk(inbox) && forall i | 0 <= i < |q| :: Carries(inbox[i], q[i])
    requires s.rcvBuf == [] && !SameAsLast(s.last, q[0].seg)
    requires Bootstrap(s.rcvNxt, q[0].seg) == q[0].seg.frg
    ensures var first := Dispatch(s, inbox[0].buff, inbox[0].ret, now);
      && first.flow == More && first.s.rcvBuf == []
      && first.s.rcvQueue == s.rcvQueue + [Inbound(q[0].seg, q[0].data)]
      && SendSideKept(s, first.s)
      && !SameAsLast(first.s.last, q[1].seg) && Bootstrap(first.s.rcvNxt, q[1].seg) == q[1].seg.frg
  {
    var n := q[0];
    ExpectedDatagram(s, n, inbox[0], now);
    var first := Dispatch(s, inbox[0].buff, inbox[0].ret, now);
    NextExpected(first.s, n, q[1]);
  }

  /** The last segment of a countdown, fragment 0, ends the receive loop. */
  lemma DeliverLast(s: Session, q: seq<Node>, inbox: seq<Datagram>, now: u32)
    requires |q| == 1 && Countdown(q, s.conv)
    requires |inbox| == 1 && Carries(inbox[0], q[0])
    requires s.rcvBuf == [] && !SameAsLast(s.last, q[0].seg)
    requires Bootstrap(s.rcvNxt, q[0].seg) == q[0].seg.frg
    requires InboxOk(inbox)
    ensures var st := RecvFlush(s, inbox, now);
      && st.flow == Done
      && st.s.rcvQueue == s.rcvQueue + Arrivals(q)
      && st.s.rcvBuf == [] && st.s.rcvNxt == 0
      && SendSideKept(s, st.s)
  {
    var n := q[0];
    ExpectedDatagram(s, n, inbox[0], now);
    var first := Dispatch(s, inbox[0].buff, inbox[0].ret, now);
    assert RecvFlush(s, inbox, now) == first;
    assert Arrivals(q) == [Inbound(n.seg, n.data)];
  }

  /** The rest of a delivered countdown is a delivered countdown. */
  lemma CountdownTail(q: seq<Node>, inbox: seq<Datagram>, conv: u32)
    requires |q| > 1 && Countdown(q, conv)
    requires |inbox| == |q| && forall i | 0 <= i < |q| :: Carries(inbox[i], q[i])
    ensures Countdown(q[1..], conv)
    ensures |inbox[1..]| == |q[1..]| && forall i | 0 <= i < |q[1..]| :: Carries(inbox[1..][i], q[1..][i])
  {
    assert forall i | 0 <= i < |q[1..]| :: q[1..][i] == q[i + 1] && inbox[1..][i] == inbox[i + 1];
  }

  /** After segment `n` of a countdown went through, its successor `next` is the expected
      segment and is not taken for a repeat. */
  lemma NextExpected(s: Session, n: Node, next: Node)
    requires s.last == Inbound(n.seg, n.data).seg && s.rcvNxt == n.seg.frg - 1
    requires next.seg.frg == n.seg.frg - 1
    ensures !SameAsLast(s.last, next.seg) && Bootstrap(s.rcvNxt, next.seg) == next.seg.frg
  {
  }

  /** The first message of a queue that starts with a countdown is that countdown. */
  lemma {:induction false} CountdownIsOneMessage(q: seq<Node>, rest: seq<Node>, conv: u32)
    requires q != [] && Countdown(q, conv)
    ensures MessageEnd(Arrivals(q) + rest) == |q|
    decreases |q|
  {
    var a := Arrivals(q) + rest;
    if |q| > 1 {
      assert Countdown(q[1..], conv);
      assert a[1..] == Arrivals(q[1..]) + rest;
      CountdownIsOneMessage(q[1..], rest, conv);
    }
  }

  lemma {:induction false} ArrivalPayloads(q: seq<Node>)
    ensures Payloads(Arrivals(q)) == Payloads(q)
    decreases |q|
  {
    if q != [] {
      assert Arrivals(q)[1..] == Arrivals(q[1..]);
      ArrivalPayloads(q[1..]);
    }
  }

  /** qsp_send followed by qsp_recv_flush on the other side: when the messages the sender
      emits for a payload reach a fresh-enough receiver of the same conversation in order,
      the receive loop returns 0 and the first message in rcv_queue is exactly the fragments,
      so qsp_peeksize reports the payload's length and qsp_recv (see `Recv`) hands back the
      payload itself. */
  lemma {:induction false} SendThenReceive(snd: Session, payload: seq<u8>, now: u32,
                                           rcv: Session, inbox: seq<Datagram>, later: u32)
    requires WellFormed(snd) && |payload| < 0x8000_0000 && snd.sndQueue == []
    requires snd.mode != MODE_WEAK || |payload| <= 256 * snd.mss
    requires rcv.conv == snd.conv && rcv.rcvBuf == [] && rcv.rcvQueue == [] && rcv.rcvNxt == 0
    requires !SameAsLast(rcv.last, Fragment(snd, payload, now)[0].seg)
    requires var q := Fragment(snd, payload, now);
      |inbox| == |q| && forall i | 0 <= i < |q| :: Carries(inbox[i], q[i])
    ensures InboxOk(inbox)
    ensures var q := Fragment(snd, payload, now);
      var st := RecvFlush(rcv, inbox, later);
      && st.flow == Done
      && st.s.rcvQueue == Arrivals(q)
      && MessageEnd(st.s.rcvQueue) == |q|
      && Payloads(st.s.rcvQueue[..MessageEnd(st.s.rcvQueue)]) == payload
      && Peeksize(st.s.rcvQueue) == |payload|
  {
    var q := Fragment(snd, payload, now);
    FragmentShape(snd, payload, now);
    assert Countdown(q, rcv.conv);
    var count := |q|;
    assert q[0].seg.sn == count && q[0].seg.frg == count - 1;
    assert Sub32(count, count - 1) == 1;
    DeliverCountdown(rcv, q, inbox, later);
    var st := RecvFlush(rcv, inbox, later);
    assert st.s.rcvQueue == Arrivals(q);
    CountdownIsOneMessage(q, [], rcv.conv);
    assert Arrivals(q) + [] == Arrivals(q);
    assert st.s.rcvQueue[..|q|] == Arrivals(q);
    ArrivalPayloads(q);
    assert QueueOk(Arrivals(q));
    PeeksizeMeasuresMessage(st.s.rcvQueue);
  }

  /** Fragment 1 of a two-fragment message of conversation 7, carrying three bytes. */
  const FIRST_OF_TWO: Node := Node(0, Header(7, 1, 5, 2, CMD_PUSH, MODE_SINGLE, 0, 3), [1, 2, 3])

  /** The receive loop stops as soon as qsp_input has nothing more, even in the middle of
      a message.  Fragment 1 of a two-fragment message, arriving first at a new session,
      is drained straight into rcv_queue; with no fragment 0 behind it, that queue already
      reads as one whole message of three bytes, which qsp_recv hands out as such. */
  lemma {:induction false} PartialMessageDelivered(d: Datagram, now: u32)
    requires Carries(d, FIRST_OF_TWO)
    ensures InboxOk([d])
    ensures var st := RecvFlush(Create(7), [d], now);
      && st.flow == Done && st.s.rcvQueue == [FIRST_OF_TWO]
      && MessageEnd(st.s.rcvQueue) == 1
      && Payloads(st.s.rcvQueue[..1]) == [1, 2, 3]
      && Peeksize(st.s.rcvQueue) == 3
  {
    var s := Create(7);
    var n := FIRST_OF_TWO;
    assert Deliverable(n, s.conv) && !SameAsLast(s.last, n.seg);
    assert Bootstrap(s.rcvNxt, n.seg) == n.seg.frg by { assert Sub32(2, 1) == 1; }
    assert Inbound(n.seg, n.data) == n;
    InputRunsDry(s, n, d, now);
    LoneFirstFragment();
  }

  /** A lone datagram carrying the expected segment, not fragment 0: the segment goes to
      rcv_queue, and the loop ends there because the input is exhausted, with the message
      still incomplete. */
  lemma {:induction false} InputRunsDry(s: Session, n: Node, d: Datagram, now: u32)
    requires Deliverable(n, s.conv) && Carries(d, n) && n.seg.frg != 0
    requires s.rcvBuf == [] && !SameAsLast(s.last, n.seg) && Bootstrap(s.rcvNxt, n.seg) == n.seg.frg
    ensures InboxOk([d])
    ensures var st := RecvFlush(s, [d], now);
      st.flow == Done && st.s.rcvQueue == s.rcvQueue + [Inbound(n.seg, n.data)]
  {
    assert InboxOk([d]);
    ExpectedDatagram(s, n, d, now);
    assert [d][1..] == [];
  }

  /** A queue holding only fragment 1 reads as one three-byte message. */
  lemma LoneFirstFragment()
    ensures MessageEnd([FIRST_OF_TWO]) == 1
    ensures Payloads([FIRST_OF_TWO][..1]) == [1, 2, 3]
    ensures Peeksize([FIRST_OF_TWO]) == 3
  {
    var n := FIRST_OF_TWO;
    assert [n][..1] == [n];
    assert Payloads([n]) == n.data + Payloads([]);
    PeeksizeMeasuresMessage([n]);
  }

  /** The transport messages of a send from an idle HALF or WEAK sender are exactly what a
      receive buffer must hold for `SendThenReceive`. */
  lemma {:induction false} SentMessagesCarryFragments(s: Session, buf: seq<u8>, len: i32, now: u32,
                                                      inbox: seq<Datagram>)
    requires WellFormed(s) && 0 <= len <= |buf| && s.sndQueue == [] && s.mode != MODE_SINGLE
    requires Send(s, buf, len, now).Sent?
    requires var out := Send(s, buf, len, now).out;
      |inbox| == |out| && forall i | 0 <= i < |out| ::
        |inbox[i].buff| == BUF_SIZE && inbox[i].ret == |out[i]| && out[i] <= inbox[i].buff
    ensures var q := Fragment(s, buf[..len], now);
      |inbox| == |q| && forall i | 0 <= i < |q| :: Carries(inbox[i], q[i])
  {
    var q := Fragment(s, buf[..len], now);
    var out := Send(s, buf, len, now).out;
    assert out == Wires(q) by {
      SendTransmitsFragments(s, buf, len, now);
    }
    FragmentShape(s, buf[..len], now);
    forall i | 0 <= i < |q|
      ensures Carries(inbox[i], q[i])
    {
      WireParts(q[i]);
      assert out[i] == Wire(q[i]);
    }
  }

  // ---------------------------------------------------------------------
  // Scenarios
  // ---------------------------------------------------------------------

  /** 3000 bytes from a fresh session: three fragments numbered 2, 1, 0 of 1376, 1376 and
      248 bytes, all with fragment count 3. */
  lemma ThreeThousandBytes(payload: seq<u8>, now: u32)
    requires |payload| == 3000
    ensures var q := Fragment(Create(1), payload, now);
      && |q| == 3
      && q[0].seg.frg == 2 && q[1].seg.frg == 1 && q[2].seg.frg == 0
      && q[0].seg.sn == 3
      && q[0].seg.len == 1376 && q[1].seg.len == 1376 && q[2].seg.len == 248
  {
    var s := Create(1);
    var q := Fragment(s, payload, now);
    FragmentShape(s, payload, now);
    assert |q| == 3;
    assert Payloads(q) == q[0].data + q[1].data + q[2].data by {
      assert q[1..][1..][1..] == [];
    }
  }

  /** A one-byte WEAK send from a fresh session is one fragment numbered 0, and its receiver
      acknowledges it with the single byte 0. */
  lemma OneByteWeakAck(b: u8, now: u32, later: u32)
    ensures var q := Fragment(SetMode(Create(1), MODE_WEAK), [b], now);
      && |q| == 1 && q[0].seg.frg == 0 && q[0].seg.mode == MODE_WEAK
      && RespondAck(Inbound(q[0].seg, q[0].data), later) == [[0]]
  {
    var s := SetMode(Create(1), MODE_WEAK);
    FragmentShape(s, [b], now);
  }
}

=== FILE: iqueue.dfy ===
/** The intrusive circular doubly-linked list of queue.h.

    Memory is modelled as the `next` and `prev` fields of every link cell,
    indexed by address.  Each macro becomes a function that performs the same
    field assignments in the same order, so aliasing (an empty list whose head
    is its own neighbour) behaves as in C.  `Ring(m, head, s)` says that the
    circular list rooted at `head` holds exactly the cells `s`, front to back;
    the lemmas show that each macro realises the matching sequence operation,
    which is why the protocol engine can keep its queues as sequences. */
module IQueue {

  type Ptr = nat

  const NULL: Ptr := 0

  datatype Links = Links(next: map<Ptr, Ptr>, prev: map<Ptr, Ptr>)

  function SetNext(m: Links, p: Ptr, q: Ptr): Links
  {
    m.(next := m.next[p := q])
  }

  function SetPrev(m: Links, p: Ptr, q: Ptr): Links
  {
    m.(prev := m.prev[p := q])
  }

  /** The list rooted at `head` holds exactly the distinct cells `s`, front to back:
      following `next` from `head` visits `s` and returns to `head`, and every `prev`
      points back along the same path. */
  ghost predicate Ring(m: Links, head: Ptr, s: seq<Ptr>)
  {
    && head != NULL && head in m.next && head in m.prev
    && (forall j | 0 <= j < |s| :: s[j] != NULL && s[j] != head && s[j] in m.next && s[j] in m.prev)
    && (forall i, j | 0 <= i < j < |s| :: s[i] != s[j])
    && m.next[head] == (if s == [] then head else s[0])
    && m.prev[head] == (if s == [] then head else s[|s| - 1])
    && (forall j | 0 <= j < |s| - 1 :: m.next[s[j]] == s[j + 1] && m.prev[s[j + 1]] == s[j])
    && (s != [] ==> m.next[s[|s| - 1]] == head && m.prev[s[0]] == head)
  }

  /** On a ring every cell's successor points back at it: `x.next.prev == x`. */
  lemma BackLinks(m: Links, head: Ptr, s: seq<Ptr>)
    requires Ring(m, head, s)
    ensures m.next[head] in m.prev && m.prev[m.next[head]] == head
    ensures forall j | 0 <= j < |s| :: m.next[s[j]] in m.prev && m.prev[m.next[s[j]]] == s[j]
  {
    forall j | 0 <= j < |s|
      ensures m.next[s[j]] in m.prev && m.prev[m.next[s[j]]] == s[j]
    {
      if j < |s| - 1 {
        assert m.next[s[j]] == s[j + 1];
      }
    }
  }

  // ---------------------------------------------------------------------
  // IQUEUE_INIT / IQUEUE_IS_EMPTY
  // ---------------------------------------------------------------------

  function Init(m: Links, p: Ptr): Links
  {
    SetPrev(SetNext(m, p, p), p, p)
  }

  predicate IsEmpty(m: Links, p: Ptr)
    requires p in m.next
  {
    m.next[p] == p
  }

  /** IQUEUE_INIT makes an empty list, and IQUEUE_IS_EMPTY holds of a list exactly when it
      has no elements. */
  lemma InitIsEmpty(m: Links, p: Ptr, s: seq<Ptr>)
    requires p != NULL
    ensures Ring(Init(m, p), p, [])
    ensures Ring(m, p, s) ==> (IsEmpty(m, p) <==> s == [])
  {
  }

  /** Re-initialising a cell that is not on a ring leaves the ring intact. */
  lemma InitFrame(m: Links, p: Ptr, head: Ptr, s: seq<Ptr>)
    requires Ring(m, head, s)
    requires p != head && p !in s
    ensures Ring(Init(m, p), head, s)
  {
  }

  // ---------------------------------------------------------------------
  // IQUEUE_ADD / IQUEUE_ADD_TAIL
  // ---------------------------------------------------------------------

  /** IQUEUE_ADD(node, head): insert `node` right after `head`. */
  function Add(m: Links, node: Ptr, head: Ptr): Links
    requires head in m.next
  {
    var m1 := SetPrev(m, node, head);
    var m2 := SetNext(m1, node, m1.next[head]);
    var m3 := SetPrev(m2, m2.next[head], node);
    SetNext(m3, head, node)
  }

  /** IQUEUE_ADD_TAIL(node, head): insert `node` right before `head`. */
  function AddTail(m: Links, node: Ptr, head: Ptr): Links
    requires head in m.prev
  {
    var m1 := SetPrev(m, node, m.prev[head]);
    var m2 := SetNext(m1, node, head);
    var m3 := SetNext(m2, m2.prev[head], node);
    SetPrev(m3, head, node)
  }

  /** IQUEUE_ADD puts a fresh cell at the front of the list and leaves the rest in order. */
  lemma {:induction false} AddFront(m: Links, head: Ptr, s: seq<Ptr>, node: Ptr)
    requires Ring(m, head, s)
    requires node != NULL && node != head && node !in s
    ensures Ring(Add(m, node, head), head, [node] + s)
  {
    var s' := [node] + s;
    var m' := Add(m, node, head);
    var first := m.next[head];
    assert m'.next == m.next[node := first][head := node];
    assert m'.prev == m.prev[node := head][first := node];
    assert forall j | 1 <= j < |s'| :: s'[j] == s[j - 1];
    forall j | 0 <= j < |s'| - 1
      ensures m'.next[s'[j]] == s'[j + 1] && m'.prev[s'[j + 1]] == s'[j]
    {
      if j >= 1 {
        assert s[j] != first;
      }
    }
  }

  /** IQUEUE_ADD_TAIL puts a fresh cell at the back of the list and leaves the rest in order. */
  lemma {:induction false} AddBack(m: Links, head: Ptr, s: seq<Ptr>, node: Ptr)
    requires Ring(m, head, s)
    requires node != NULL && node != head && node !in s
    ensures Ring(AddTail(m, node, head), head, s + [node])
  {
    var s' := s + [node];
    var m' := AddTail(m, node, head);
    var lst := m.prev[head];
    assert m'.next == m.next[node := head][lst := node];
    assert m'.prev == m.prev[node := lst][head := node];
    assert forall j | 0 <= j < |s| :: s'[j] == s[j];
    forall j | 0 <= j < |s'| - 1
      ensures m'.next[s'[j]] == s'[j + 1] && m'.prev[s'[j + 1]] == s'[j]
    {
      if j < |s| - 1 {
        assert s[j] != lst;
      }
    }
  }

  // ---------------------------------------------------------------------
  // IQUEUE_DEL / IQUEUE_DEL_INIT
  // ---------------------------------------------------------------------

  /** IQUEUE_DEL(entry): link the neighbours of `entry` to each other and null its links. */
  function Del(m: Links, entry: Ptr): Links
    requires entry in m.next && entry in m.prev
  {
    var m1 := SetPrev(m, m.next[entry], m.prev[entry]);
    var m2 := SetNext(m1, m1.prev[entry], m1.next[entry]);
    var m3 := SetNext(m2, entry, NULL);
    SetPrev(m3, entry, NULL)
  }

  /** IQUEUE_DEL_INIT(entry): IQUEUE_DEL followed by IQUEUE_INIT. */
  function DelInit(m: Links, entry: Ptr): Links
    requires entry in m.next && entry in m.prev
  {
    Init(Del(m, entry), entry)
  }

  /** IQUEUE_DEL removes exactly the `k`-th element, keeps the others in order, and nulls
      the removed cell's links. */
  lemma {:induction false} DelRemoves(m: Links, head: Ptr, s: seq<Ptr>, k: nat)
    requires Ring(m, head, s)
    requires k < |s|
    ensures s[k] in m.next && s[k] in m.prev
    ensures Ring(Del(m, s[k]), head, s[..k] + s[k + 1..])
    ensures Del(m, s[k]).next[s[k]] == NULL && Del(m, s[k]).prev[s[k]] == NULL
  {
    RemoveAtShape(s, k);
    DelInner(m, head, s, k);
    DelEnds(m, head, s, k);
  }

  /** The neighbours of the `k`-th cell, and the link maps after IQUEUE_DEL unlinks it. */
  lemma DelShape(m: Links, head: Ptr, s: seq<Ptr>, k: nat)
    requires Ring(m, head, s)
    requires k < |s|
    ensures var p := if k == 0 then head else s[k - 1];
      var n := if k + 1 < |s| then s[k + 1] else head;
      && m.prev[s[k]] == p && m.next[s[k]] == n
      && Del(m, s[k]).next == m.next[p := n][s[k] := NULL]
      && Del(m, s[k]).prev == m.prev[n := p][s[k] := NULL]
  {
  }

  /** After IQUEUE_DEL, consecutive remaining cells are linked both ways. */
  lemma {:induction false} DelInner(m: Links, head: Ptr, s: seq<Ptr>, k: nat)
    requires Ring(m, head, s)
    requires k < |s|
    ensures var s' := s[..k] + s[k + 1..];
      var m' := Del(m, s[k]);
      forall j | 0 <= j < |s'| - 1 :: m'.next[s'[j]] == s'[j + 1] && m'.prev[s'[j + 1]] == s'[j]
  {
    var p := if k == 0 then head else s[k - 1];
    var n := if k + 1 < |s| then s[k + 1] else head;
    DelShape(m, head, s, k);
    var s' := s[..k] + s[k + 1..];
    var m' := Del(m, s[k]);
    RemoveAtShape(s, k);
    forall j | 0 <= j < |s'| - 1
      ensures m'.next[s'[j]] == s'[j + 1] && m'.prev[s'[j + 1]] == s'[j]
    {
      if j + 1 < k {
        assert s'[j] == s[j] && s'[j + 1] == s[j + 1];
        assert s[j] != p && s[j + 1] != n;
      } else if j + 1 == k {
        assert s'[j] == p && s'[j + 1] == n;
      } else {
        assert s'[j] == s[j + 1] && s'[j + 1] == s[j + 2];
        assert s[j + 1] != p && s[j + 2] != n;
      }
    }
  }

  /** After IQUEUE_DEL the head is linked to the first and last remaining cells, and the
      removed cell's links are null. */
  lemma {:induction false} DelEnds(m: Links, head: Ptr, s: seq<Ptr>, k: nat)
    requires Ring(m, head, s)
    requires k < |s|
    ensures var s' := s[..k] + s[k + 1..];
      var m' := Del(m, s[k]);
      && head in m'.next && head in m'.prev
      && m'.next[head] == (if s' == [] then head else s'[0])
      && m'.prev[head] == (if s' == [] then head else s'[|s'| - 1])
      && (s' != [] ==> m'.next[s'[|s'| - 1]] == head && m'.prev[s'[0]] == head)
      && m'.next[s[k]] == NULL && m'.prev[s[k]] == NULL
  {
    var e := s[k];
    var p := if k == 0 then head else s[k - 1];
    var n := if k + 1 < |s| then s[k + 1] else head;
    DelShape(m, head, s, k);
    var s' := s[..k] + s[k + 1..];
    var m' := Del(m, e);
    RemoveAtShape(s, k);
    if k + 1 < |s| {
      assert head != n;
      assert m'.prev[head] == m.prev[head] == s[|s| - 1] == s'[|s'| - 1];
      assert m'.next[s'[|s'| - 1]] == head by {
        assert s'[|s'| - 1] == s[|s| - 1];
        assert s[|s| - 1] != p && s[|s| - 1] != e;
      }
    } else if k > 0 {
      assert n == head && s'[|s'| - 1] == p;
      assert m'.prev[head] == s'[|s'| - 1];
    } else {
      assert s' == [];
    }
    if k > 0 {
      assert head != p && head != e;
      assert m'.next[head] == s[0] == s'[0];
      assert m'.prev[s'[0]] == head by {
        assert s'[0] == s[0];
        assert s[0] != n && s[0] != e;
      }
    } else if k + 1 < |s| {
      assert p == head && s'[0] == n;
      assert m'.next[head] == s'[0];
    }
  }

  /** Removing position `k` from a sequence of distinct cells keeps them distinct, shifts
      the later ones down by one, and drops exactly `s[k]`. */
  lemma RemoveAtShape(s: seq<Ptr>, k: nat)
    requires k < |s|
    requires forall i, j | 0 <= i < j < |s| :: s[i] != s[j]
    ensures var s' := s[..k] + s[k + 1..];
      && |s'| == |s| - 1
      && (forall j | 0 <= j < k :: s'[j] == s[j])
      && (forall j | k <= j < |s'| :: s'[j] == s[j + 1])
      && (forall j | 0 <= j < |s'| :: s'[j] != s[k] && s'[j] in s)
      && (forall i, j | 0 <= i < j < |s'| :: s'[i] != s'[j])
  {
    var s' := s[..k] + s[k + 1..];
    forall i, j | 0 <= i < j < |s'|
      ensures s'[i] != s'[j]
    {
      if j < k { assert s'[i] == s[i] && s'[j] == s[j]; }
      else if i < k { assert s'[i] == s[i] && s'[j] == s[j + 1]; }
      else { assert s'[i] == s[i + 1] && s'[j] == s[j + 1]; }
    }
    forall j | 0 <= j < |s'|
      ensures s'[j] != s[k] && s'[j] in s
    {
      if j < k { assert s'[j] == s[j]; } else { assert s'[j] == s[j + 1]; }
    }
  }

  /** IQUEUE_DEL_INIT removes the element as IQUEUE_DEL does and leaves the removed cell
      as an empty list of its own. */
  lemma {:induction false} DelInitRemoves(m: Links, head: Ptr, s: seq<Ptr>, k: nat)
    requires Ring(m, head, s)
    requires k < |s|
    ensures s[k] in m.next && s[k] in m.prev
    ensures Ring(DelInit(m, s[k]), head, s[..k] + s[k + 1..])
    ensures Ring(DelInit(m, s[k]), s[k], [])
  {
    DelRemoves(m, head, s, k);
    var s' := s[..k] + s[k + 1..];
    RemoveAtShape(s, k);
    InitFrame(Del(m, s[k]), s[k], head, s');
    InitIsEmpty(Del(m, s[k]), s[k], []);
  }

  // ---------------------------------------------------------------------
  // iqueue_foreach_entry
  // ---------------------------------------------------------------------

  /** iqueue_foreach_entry: follow `next` from the head until back at the head. */
  method Foreach(m: Links, head: Ptr, ghost s: seq<Ptr>) returns (visited: seq<Ptr>)
    requires Ring(m, head, s)
    ensures visited == s
  {
    visited := [];
    var pos := m.next[head];
    while pos != head
      invariant |visited| <= |s|
      invariant visited == s[..|visited|]
      invariant pos == if |visited| < |s| then s[|visited|] else head
      decreases |s| - |visited|
    {
      visited := visited + [pos];
      pos := m.next[pos];
    }
  }

  // ---------------------------------------------------------------------
  // __iqueue_splice / iqueue_splice / iqueue_splice_init
  // ---------------------------------------------------------------------

  /** __iqueue_splice(list, head): link the cells of `list` in right after `head`. */
  function SpliceNonEmpty(m: Links, list: Ptr, head: Ptr): Links
    requires list in m.next && list in m.prev && head in m.next
  {
    var first := m.next[list];
    var lst := m.prev[list];
    var at := m.next[head];
    var m1 := SetPrev(m, first, head);
    var m2 := SetNext(m1, head, first);
    var m3 := SetNext(m2, lst, at);
    SetPrev(m3, at, lst)
  }

  /** iqueue_splice: splice only when `list` is not empty. */
  function Splice(m: Links, list: Ptr, head: Ptr): Links
    requires list in m.next && list in m.prev && head in m.next
  {
    if IsEmpty(m, list) then m else SpliceNonEmpty(m, list, head)
  }

  /** iqueue_splice_init: splice, then re-initialise `list`. */
  function SpliceInit(m: Links, list: Ptr, head: Ptr): Links
    requires list in m.next && list in m.prev && head in m.next
  {
    Init(Splice(m, list, head), list)
  }

  /** Two lists, heads included, share no cell. */
  ghost predicate Apart(list: Ptr, s1: seq<Ptr>, head: Ptr, s2: seq<Ptr>)
  {
    && list != head && list !in s2 && head !in s1
    && (forall i, j | 0 <= i < |s1| && 0 <= j < |s2| :: s1[i] != s2[j])
  }

  /** iqueue_splice puts the elements of `list`, in their order, in front of those of
      `head`; it changes nothing when `list` is empty. */
  lemma {:induction false} SplicePrepends(m: Links, list: Ptr, s1: seq<Ptr>, head: Ptr, s2: seq<Ptr>)
    requires Ring(m, list, s1) && Ring(m, head, s2)
    requires Apart(list, s1, head, s2)
    ensures s1 == [] ==> Splice(m, list, head) == m
    ensures Ring(Splice(m, list, head), head, s1 + s2)
  {
    if s1 == [] {
      assert s1 + s2 == s2;
    } else {
      SpliceCells(m, list, s1, head, s2);
      SpliceInner(m, list, s1, head, s2);
      SpliceEnds(m, list, s1, head, s2);
    }
  }

  /** The link maps after __iqueue_splice of a non-empty `list`. */
  lemma SpliceShape(m: Links, list: Ptr, s1: seq<Ptr>, head: Ptr, s2: seq<Ptr>)
    requires Ring(m, list, s1) && Ring(m, head, s2) && s1 != []
    ensures var at := m.next[head];
      && SpliceNonEmpty(m, list, head).next == m.next[head := s1[0]][s1[|s1| - 1] := at]
      && SpliceNonEmpty(m, list, head).prev == m.prev[s1[0] := head][at := s1[|s1| - 1]]
  {
  }

  /** The spliced cells are distinct, none is `head`, and all have links. */
  lemma {:induction false} SpliceCells(m: Links, list: Ptr, s1: seq<Ptr>, head: Ptr, s2: seq<Ptr>)
    requires Ring(m, list, s1) && Ring(m, head, s2)
    requires Apart(list, s1, head, s2) && s1 != []
    ensures var s' := s1 + s2;
      var m' := SpliceNonEmpty(m, list, head);
      && (forall j | 0 <= j < |s'| ::
            s'[j] != NULL && s'[j] != head && s'[j] in m'.next && s'[j] in m'.prev)
      && (forall i, j | 0 <= i < j < |s'| :: s'[i] != s'[j])
  {
    SpliceShape(m, list, s1, head, s2);
    var s' := s1 + s2;
    forall j | 0 <= j < |s'|
      ensures s'[j] != NULL && s'[j] != head && s'[j] in m.next && s'[j] in m.prev
    {
      if j < |s1| { assert s'[j] == s1[j]; } else { assert s'[j] == s2[j - |s1|]; }
    }
    forall i, j | 0 <= i < j < |s'|
      ensures s'[i] != s'[j]
    {
      if j < |s1| { assert s'[i] == s1[i] && s'[j] == s1[j]; }
      else if i < |s1| { assert s'[i] == s1[i] && s'[j] == s2[j - |s1|]; }
      else { assert s'[i] == s2[i - |s1|] && s'[j] == s2[j - |s1|]; }
    }
  }

  /** After __iqueue_splice, consecutive cells of `s1 + s2` are linked both ways. */
  lemma {:induction false} SpliceInner(m: Links, list: Ptr, s1: seq<Ptr>, head: Ptr, s2: seq<Ptr>)
    requires Ring(m, list, s1) && Ring(m, head, s2)
    requires Apart(list, s1, head, s2) && s1 != []
    ensures var s' := s1 + s2;
      var m' := SpliceNonEmpty(m, list, head);
      forall j | 0 <= j < |s'| - 1 :: m'.next[s'[j]] == s'[j + 1] && m'.prev[s'[j + 1]] == s'[j]
  {
    SpliceShape(m, list, s1, head, s2);
    var first := s1[0];
    var lst := s1[|s1| - 1];
    var at := m.next[head];
    var m' := SpliceNonEmpty(m, list, head);
    var s' := s1 + s2;
    forall j | 0 <= j < |s'| - 1
      ensures m'.next[s'[j]] == s'[j + 1] && m'.prev[s'[j + 1]] == s'[j]
    {
      if j + 1 < |s1| {
        assert s'[j] == s1[j] && s'[j + 1] == s1[j + 1];
        assert s1[j] != lst && s1[j] != head;
        assert s1[j + 1] != first && s1[j + 1] != at;
      } else if j + 1 == |s1| {
        assert s'[j] == lst && s'[j + 1] == s2[0] && s2[0] == at;
      } else {
        assert s'[j] == s2[j - |s1|] && s'[j + 1] == s2[j + 1 - |s1|];
        assert s2[j - |s1|] != head && s2[j - |s1|] != lst;
        assert s2[j + 1 - |s1|] != first && s2[j + 1 - |s1|] != at;
      }
    }
  }

  /** After __iqueue_splice, `head` is linked to the first cell of `s1` and the last of
      `s1 + s2`. */
  lemma {:induction false} SpliceEnds(m: Links, list: Ptr, s1: seq<Ptr>, head: Ptr, s2: seq<Ptr>)
    requires Ring(m, list, s1) && Ring(m, head, s2)
    requires Apart(list, s1, head, s2) && s1 != []
    ensures var s' := s1 + s2;
      var m' := SpliceNonEmpty(m, list, head);
      && head in m'.next && head in m'.prev
      && m'.next[head] == s'[0] && m'.prev[head] == s'[|s'| - 1]
      && m'.next[s'[|s'| - 1]] == head && m'.prev[s'[0]] == head
  {
    SpliceShape(m, list, s1, head, s2);
    var first := s1[0];
    var lst := s1[|s1| - 1];
    var at := m.next[head];
    var s' := s1 + s2;
    assert s'[0] == first;
    if s2 == [] {
      assert s'[|s'| - 1] == lst && at == head;
    } else {
      assert s'[|s'| - 1] == s2[|s2| - 1];
      assert s2[|s2| - 1] != lst && s2[|s2| - 1] != head;
      assert head != first && head != at;
    }
  }

  /** iqueue_splice_init splices as iqueue_splice does and leaves `list` empty. */
  lemma {:induction false} SpliceInitEmpties(m: Links, list: Ptr, s1: seq<Ptr>, head: Ptr, s2: seq<Ptr>)
    requires Ring(m, list, s1) && Ring(m, head, s2)
    requires Apart(list, s1, head, s2)
    ensures Ring(SpliceInit(m, list, head), head, s1 + s2)
    ensures Ring(SpliceInit(m, list, head), list, [])
  {
    SplicePrepends(m, list, s1, head, s2);
    var s' := s1 + s2;
    forall j | 0 <= j < |s'|
      ensures s'[j] != list
    {
      if j < |s1| { assert s'[j] == s1[j]; } else { assert s'[j] == s2[j - |s1|]; }
    }
    InitFrame(Splice(m, list, head), list, head, s');
    InitIsEmpty(Splice(m, list, head), list, []);
  }

  // ---------------------------------------------------------------------
  // Frames: an operation on one list leaves a separate list alone
  // ---------------------------------------------------------------------

  /** A ring keeps its shape under link maps that agree with the old ones on its cells. */
  lemma RingFrame(m: Links, m': Links, head: Ptr, s: seq<Ptr>)
    requires Ring(m, head, s)
    requires head in m'.next && head in m'.prev
    requires m'.next[head] == m.next[head] && m'.prev[head] == m.prev[head]
    requires forall j | 0 <= j < |s| ::
               s[j] in m'.next && s[j] in m'.prev
               && m'.next[s[j]] == m.next[s[j]] && m'.prev[s[j]] == m.prev[s[j]]
    ensures Ring(m', head, s)
  {
  }

  /** IQUEUE_ADD on one list keeps every list that shares no cell with it or the new node. */
  lemma {:induction false} AddFrame(m: Links, head: Ptr, s: seq<Ptr>, node: Ptr, h2: Ptr, s2: seq<Ptr>)
    requires Ring(m, head, s) && Ring(m, h2, s2) && Apart(head, s, h2, s2)
    requires node != h2 && node !in s2
    ensures Ring(Add(m, node, head), h2, s2)
  {
    var first := m.next[head];
    assert first == head || first in s;
    assert Add(m, node, head).next == m.next[node := first][head := node];
    assert Add(m, node, head).prev == m.prev[node := head][first := node];
    RingFrame(m, Add(m, node, head), h2, s2);
  }

  /** IQUEUE_ADD_TAIL on one list keeps every list that shares no cell with it or the new node. */
  lemma {:induction false} AddTailFrame(m: Links, head: Ptr, s: seq<Ptr>, node: Ptr, h2: Ptr, s2: seq<Ptr>)
    requires Ring(m, head, s) && Ring(m, h2, s2) && Apart(head, s, h2, s2)
    requires node != h2 && node !in s2
    ensures Ring(AddTail(m, node, head), h2, s2)
  {
    var lst := m.prev[head];
    assert lst == head || lst in s;
    assert AddTail(m, node, head).next == m.next[node := head][lst := node];
    assert AddTail(m, node, head).prev == m.prev[node := lst][head := node];
    RingFrame(m, AddTail(m, node, head), h2, s2);
  }

  /** IQUEUE_DEL of an element of one list keeps every list that shares no cell with it. */
  lemma {:induction false} DelFrame(m: Links, head: Ptr, s: seq<Ptr>, k: nat, h2: Ptr, s2: seq<Ptr>)
    requires Ring(m, head, s) && Ring(m, h2, s2) && Apart(head, s, h2, s2)
    requires k < |s|
    ensures Ring(Del(m, s[k]), h2, s2)
  {
    DelShape(m, head, s, k);
    var p := if k == 0 then head else s[k - 1];
    var n := if k + 1 < |s| then s[k + 1] else head;
    assert p == head || p in s;
    assert n == head || n in s;
    RingFrame(m, Del(m, s[k]), h2, s2);
  }

  /** iqueue_splice of one list onto another keeps every third list apart from both. */
  lemma {:induction false} SpliceFrame(m: Links, list: Ptr, s1: seq<Ptr>, head: Ptr, s2: seq<Ptr>,
                                       h3: Ptr, s3: seq<Ptr>)
    requires Ring(m, list, s1) && Ring(m, head, s2) && Ring(m, h3, s3)
    requires Apart(list, s1, h3, s3) && Apart(head, s2, h3, s3)
    ensures Ring(Splice(m, list, head), h3, s3)
  {
    if s1 != [] {
      SpliceShape(m, list, s1, head, s2);
      var at := m.next[head];
      assert at == head || at in s2;
      assert s1[0] in s1 && s1[|s1| - 1] in s1;
      RingFrame(m, Splice(m, list, head), h3, s3);
    }
  }

  /** The front cell of a list apart from another: it is in neither that list nor the rest
      of its own, and the rest is still apart from the other list. */
  lemma ApartFront(m: Links, b: Ptr, sb: seq<Ptr>, q: Ptr, sq: seq<Ptr>)
    requires Ring(m, b, sb) && Apart(b, sb, q, sq) && sb != []
    ensures sb[0] != NULL && sb[0] != q && sb[0] !in sq
    ensures sb[0] != b && sb[0] !in sb[1..]
    ensures Apart(q, sq, b, sb[1..])
  {
    assert forall j | 0 <= j < |sb[1..]| :: sb[1..][j] == sb[j + 1];
  }

  /** `iqueue_del` of the front cell of a list leaves the rest of it a ring. */
  lemma {:induction false} DelFront(m: Links, b: Ptr, sb: seq<Ptr>)
    requires Ring(m, b, sb) && sb != []
    ensures Ring(Del(m, sb[0]), b, sb[1..])
  {
    var d := Del(m, sb[0]);
    assert Ring(d, b, sb[..0] + sb[1..]) by { DelRemoves(m, b, sb, 0); }
    RingRename(d, b, sb[..0] + sb[1..], sb[1..]);
  }

  /** A ring is a ring of any sequence equal to its own. */
  lemma RingRename(m: Links, head: Ptr, s: seq<Ptr>, t: seq<Ptr>)
    requires Ring(m, head, s) && s == t
    ensures Ring(m, head, t)
  {
  }

  /** The drain step of qsp_parse_data, `iqueue_del` of the first node of one list followed by
      `iqueue_add_tail` onto another: the first list loses its front element, the second
      gains it at the back, and both stay rings. */
  lemma {:induction false} MoveFrontToTail(m: Links, b: Ptr, sb: seq<Ptr>, q: Ptr, sq: seq<Ptr>)
    requires Ring(m, b, sb) && Ring(m, q, sq) && Apart(b, sb, q, sq) && sb != []
    ensures var m' := AddTail(Del(m, sb[0]), sb[0], q);
      Ring(m', b, sb[1..]) && Ring(m', q, sq + [sb[0]])
  {
    var x := sb[0];
    var d := Del(m, x);
    ApartFront(m, b, sb, q, sq);
    assert Ring(d, b, sb[1..]) && Ring(d, q, sq) by {
      DelFront(m, b, sb);
      DelFrame(m, b, sb, 0, q, sq);
    }
    AddBack(d, q, sq, x);
    AddTailFrame(d, q, sq, x, b, sb[1..]);
  }
}

=== FILE: protocol.dfy ===
/** The QSP data model of qsp.h: protocol constants, the wire segment header, queue
    nodes and the per-conversation session, with session creation and the mode setter. */
module Protocol {
  import opened Bytes

  // ---------------------------------------------------------------------
  // Constants
  // ---------------------------------------------------------------------

  /** MTU handed to the transport. */
  const MTU_SIZE: nat := 1400
  /** Offset of `data` from `conv` in a segment: four u32 fields and four u16 fields. */
  const HEAD_SIZE: nat := 4 * 4 + 4 * 2
  /** Payload bytes per segment. */
  const MSS: nat := MTU_SIZE - HEAD_SIZE
  /** Size of the session's scratch transmit/receive buffer. */
  const BUF_SIZE: nat := MTU_SIZE * 3
  /** More than this many fragments waiting in rcv_buf counts as loss (HALF mode). */
  const PASS_NUM: nat := 2
  const VERSION: u32 := 65535
  /** ACK timeout in milliseconds. */
  const TIME_OUT: nat := 200
  /** Copies of each fragment sent in SINGLE mode. */
  const SINGLE_NUM: nat := 3

  const CMD_PUSH: u16 := 81
  const CMD_ACK: u16 := 82
  const CMD_AGAIN: u16 := 83

  const MODE_HALF: u32 := 91
  const MODE_WEAK: u32 := 92
  const MODE_SINGLE: u32 := 93

  /** The protocol constants agree with each other: the header is 24 bytes, a header plus
      one full payload fits the MTU and the scratch buffer, the version fits the u16 `ver`
      field, and command and mode codes are pairwise distinct. */
  lemma ConstantsAgree()
    ensures HEAD_SIZE == 24 && MSS == 1376 && BUF_SIZE == 4200
    ensures HEAD_SIZE + MSS == MTU_SIZE <= BUF_SIZE
    ensures VERSION < 0x1_0000
    ensures CMD_PUSH != CMD_ACK && CMD_ACK != CMD_AGAIN && CMD_PUSH != CMD_AGAIN
    ensures MODE_HALF != MODE_WEAK && MODE_WEAK != MODE_SINGLE && MODE_HALF != MODE_SINGLE
  {
  }

  // ---------------------------------------------------------------------
  // Segments, nodes and sessions
  // ---------------------------------------------------------------------

  /** The fixed 24-byte part of a segment (QSPSEG without `data`). */
  datatype Header = Header(conv: u32, frg: u32, ts: u32, sn: u32,
                           cmd: u16, mode: u16, ver: u16, len: u16)

  const ZERO_HEADER: Header := Header(0, 0, 0, 0, 0, 0, 0, 0)

  /** A queue element (QSPNODE): the local send time, the header and the payload. */
  datatype Node = Node(ts: u32, seg: Header, data: seq<u8>)

  /** A node owns exactly `len` payload bytes. */
  predicate NodeOk(n: Node)
  {
    |n.data| == n.seg.len
  }

  predicate QueueOk(q: seq<Node>)
  {
    forall i | 0 <= i < |q| :: NodeOk(q[i])
  }

  /** The session (struct QSP) without its callbacks, user pointer and scratch buffer. */
  datatype Session = Session(
    conv: u32, mtu: u32, mss: u32, mode: u32, ver: u32,
    rcvNxt: u32,
    last: Header,
    sndQueue: seq<Node>, sndBuf: seq<Node>, rcvBuf: seq<Node>, rcvQueue: seq<Node>)

  /** What every session reachable from `Create` satisfies: the sizes `Create` sets (nothing
      changes them afterwards) and well-formed nodes in all four queues. */
  predicate WellFormed(s: Session)
  {
    && s.mtu == MTU_SIZE && s.mss == MSS
    && QueueOk(s.sndQueue) && QueueOk(s.sndBuf) && QueueOk(s.rcvBuf) && QueueOk(s.rcvQueue)
  }

  /** Node count across both receive queues. */
  function RcvCount(s: Session): nat
  {
    |s.rcvBuf| + |s.rcvQueue|
  }

  /** The u32 session field copied into a u16 segment field (`seg.mode = qsp->mode`). */
  function Narrow16(x: u32): (r: u16)
    ensures x < 0x1_0000 ==> r == x
  {
    x % 0x1_0000
  }

  /** qsp_create: a fresh session for conversation `conv`. */
  function Create(conv: u32): (s: Session)
    ensures WellFormed(s)
    ensures s.conv == conv && s.mss + HEAD_SIZE == s.mtu
    ensures s.mode == MODE_HALF && s.ver == VERSION
    ensures s.rcvNxt == 0 && s.last == ZERO_HEADER && RcvCount(s) == 0
    ensures s.sndQueue == [] && s.sndBuf == []
  {
    Session(conv, MTU_SIZE, MTU_SIZE - HEAD_SIZE, MODE_HALF, VERSION, 0, ZERO_HEADER, [], [], [], [])
  }

  /** qsp_setmode: stores any mode value, valid or not, and touches nothing else. */
  function SetMode(s: Session, mode: u32): (r: Session)
    ensures r.mode == mode && r.(mode := s.mode) == s
    ensures WellFormed(s) ==> WellFormed(r)
  {
    s.(mode := mode)
  }
}

=== FILE: receiver.dfy ===
/** The receive side of qsp.c: duplicate suppression and reassembly (qsp_parse_data), the
    body of the qsp_recv_flush loop for one datagram, the loop itself over a finite inbox,
    message sizing (qsp_peeksize) and consumption (qsp_recv). */
module Receiver {
  import opened Bytes
  import opened Protocol
  import opened Codec
  import opened Sender
  import opened Ack

  // ---------------------------------------------------------------------
  // qsp_parse_data: duplicate suppression
  // ---------------------------------------------------------------------

  /** The primary duplicate test: `frg`, `sn` and `ts` all equal those of the last
      segment remembered. */
  predicate SameAsLast(last: Header, h: Header)
  {
    last.frg == h.frg && last.sn == h.sn && last.ts == h.ts
  }

  /** The secondary duplicate test as the source writes it: some node already waiting in
      rcv_buf has the same `sn` (the fragment count of its message), whatever its `frg`. */
  predicate SnWaiting(buf: seq<Node>, sn: u32)
  {
    exists i | 0 <= i < |buf| :: buf[i].seg.sn == sn
  }

  /** The first-fragment bootstrap: a segment with `sn - frg == 1` (u32 arithmetic) seen while
      `rcv_nxt` is 0 sets `rcv_nxt` to its `frg`; otherwise `rcv_nxt` stays. */
  function Bootstrap(nxt: u32, h: Header): (r: u32)
    ensures nxt == 0 && Sub32(h.sn, h.frg) == 1 ==> r == h.frg
    ensures nxt != 0 || Sub32(h.sn, h.frg) != 1 ==> r == nxt
  {
    if Sub32(h.sn, h.frg) == 1 && nxt == 0 then h.frg else nxt
  }

  /** Where the scan cursor `p` of qsp_parse_data stands: on the list head of rcv_buf, or
      on the node at an index. */
  datatype Cursor = Head | At(i: nat)

  /** The backward scan of rcv_buf in qsp_parse_data over the positions below `j`: from the
      tail towards the front, stop on the first node whose `sn` equals `sn`.  It yields
      whether it matched, and where the cursor stopped; running off the front leaves the
      cursor on the list head. */
  function ScanBack(buf: seq<Node>, sn: u32, j: nat): (r: (bool, Cursor))
    requires j <= |buf|
    ensures r.0 <==> exists i | 0 <= i < j :: buf[i].seg.sn == sn
    ensures !r.0 ==> r.1 == Head
    ensures r.0 ==> && r.1.At? && r.1.i < j && buf[r.1.i].seg.sn == sn
                    && forall i | r.1.i < i < j :: buf[i].seg.sn != sn
    decreases j
  {
    if j == 0 then (false, Head)
    else if buf[j - 1].seg.sn == sn then (true, At(j - 1))
    else ScanBack(buf, sn, j - 1)
  }

  /** IQUEUE_ADD(node, p) on rcv_buf: the node goes right after the cursor, at the front
      when the cursor is the head, and every other node keeps its place around it. */
  function InsertAfter(buf: seq<Node>, p: Cursor, n: Node): (r: seq<Node>)
    requires p.At? ==> p.i < |buf|
    ensures |r| == |buf| + 1
    ensures p.Head? ==> r[0] == n && r[1..] == buf
    ensures p.At? ==> && r[..p.i + 1] == buf[..p.i + 1] && r[p.i + 1] == n
                      && r[p.i + 2..] == buf[p.i + 1..]
  {
    match p
    case Head => [n] + buf
    case At(i) =>
      assert buf == buf[..i + 1] + buf[i + 1..];
      buf[..i + 1] + [n] + buf[i + 1..]
  }

  /** Inserting after any cursor adds exactly the new node: nothing else is added or lost. */
  lemma InsertAfterAddsOne(buf: seq<Node>, p: Cursor, n: Node)
    requires p.At? ==> p.i < |buf|
    ensures multiset(InsertAfter(buf, p, n)) == multiset(buf) + multiset{n}
  {
    var r := InsertAfter(buf, p, n);
    if p.At? {
      assert buf == buf[..p.i + 1] + buf[p.i + 1..];
      assert r == buf[..p.i + 1] + [n] + buf[p.i + 1..];
    } else {
      assert r == [n] + buf;
    }
  }

  datatype Admitted = Admitted(s: Session, repeat: bool)

  /** The first half of qsp_parse_data: the test against `last` (updating `last` when it
      fails), the bootstrap, the backward scan for a node with the same `sn`, and the
      insertion of a fresh node after the scan cursor.  A fresh node is one the scan did not
      match, so the cursor is on the list head and the node lands at the FRONT of rcv_buf. */
  function Admit(s: Session, n: Node): (a: Admitted)
    ensures a.repeat <==> SameAsLast(s.last, n.seg) || SnWaiting(s.rcvBuf, n.seg.sn)
    ensures a.s.last == if SameAsLast(s.last, n.seg) then s.last else n.seg
    ensures a.s.rcvNxt == Bootstrap(s.rcvNxt, n.seg)
    ensures a.repeat ==> a.s.rcvBuf == s.rcvBuf
    ensures !a.repeat ==> a.s.rcvBuf == [n] + s.rcvBuf
    ensures a.s.(last := s.last, rcvNxt := s.rcvNxt, rcvBuf := s.rcvBuf) == s
  {
    var repeat := SameAsLast(s.last, n.seg);
    var last := if repeat then s.last else n.seg;
    var nxt := Bootstrap(s.rcvNxt, n.seg);
    var (found, p) := ScanBack(s.rcvBuf, n.seg.sn, |s.rcvBuf|);
    var repeat := repeat || found;
    var buf := if repeat then s.rcvBuf else InsertAfter(s.rcvBuf, p, n);
    Admitted(s.(last := last, rcvNxt := nxt, rcvBuf := buf), repeat)
  }

  /** Admitting a well-formed node into a well-formed rcv_buf keeps it well formed. */
  lemma AdmitKeepsQueueOk(s: Session, n: Node)
    ensures QueueOk(s.rcvBuf) && NodeOk(n) ==> QueueOk(Admit(s, n).s.rcvBuf)
  {
    var a := Admit(s, n);
    if !a.repeat {
      assert forall i | 0 <= i < |a.s.rcvBuf| :: a.s.rcvBuf[i] == if i == 0 then n else s.rcvBuf[i - 1];
    }
  }

  // ---------------------------------------------------------------------
  // qsp_parse_data: the drain into rcv_queue
  // ---------------------------------------------------------------------

  /** `x - k` in u32 arithmetic for any count `k`. */
  function Back32(x: u32, k: nat): u32
  {
    (x - k) % 0x1_0000_0000
  }

  lemma Back32Step(x: u32, k: nat)
    ensures Back32(Sub32(x, 1), k) == Back32(x, k + 1)
  {
    var m := 0x1_0000_0000;
    assert Sub32(x, 1) == x - 1 || Sub32(x, 1) == x - 1 + m;
    if Sub32(x, 1) == x - 1 + m {
      assert (x - 1 + m - k) % m == (x - 1 - k) % m;
    }
  }

  /** The part of the session the drain works on. */
  datatype Reassembly = Reassembly(buf: seq<Node>, queue: seq<Node>, nxt: u32)

  /** What the drain loop of qsp_parse_data achieves when it moves `k` nodes: they are the
      first `k` nodes of rcv_buf, appended in order to rcv_queue; their fragment numbers are
      `rcv_nxt, rcv_nxt - 1, …`; `rcv_nxt` went down by `k`; and the loop stopped at an empty
      buffer or at a head that is not next. */
  ghost predicate Drained(a: Reassembly, r: Reassembly, k: int)
  {
    && 0 <= k <= |a.buf|
    && r.buf == a.buf[k..]
    && r.queue == a.queue + a.buf[..k]
    && r.nxt == Back32(a.nxt, k)
    && (forall i | 0 <= i < k :: a.buf[i].seg.frg == Back32(a.nxt, i))
    && (r.buf == [] || r.buf[0].seg.frg != r.nxt)
  }

  /** One node moved in front of a drain of `k` more gives a drain of `k + 1`. */
  lemma {:induction false} DrainedStep(a: Reassembly, r: Reassembly, k: nat)
    requires a.buf != [] && a.buf[0].seg.frg == a.nxt
    requires Drained(Reassembly(a.buf[1..], a.queue + [a.buf[0]], Sub32(a.nxt, 1)), r, k)
    ensures Drained(a, r, k + 1)
  {
    Back32Step(a.nxt, k);
    assert a.buf[1..][k..] == a.buf[k + 1..];
    assert a.queue + [a.buf[0]] + a.buf[1..][..k] == a.queue + a.buf[..k + 1];
    forall i | 0 <= i < k + 1
      ensures a.buf[i].seg.frg == Back32(a.nxt, i)
    {
      if i > 0 {
        Back32Step(a.nxt, i - 1);
        assert a.buf[i] == a.buf[1..][i - 1];
      }
    }
  }

  /** A drain that moves nothing stops at once: at an empty buffer or a head that is not next. */
  lemma DrainedStop(a: Reassembly)
    requires a.buf == [] || a.buf[0].seg.frg != a.nxt
    ensures Drained(a, a, 0)
  {
    assert a.buf[0..] == a.buf && a.queue + a.buf[..0] == a.queue;
  }

  /** A drain neither loses nor makes a node. */
  lemma DrainedCount(a: Reassembly, r: Reassembly, k: int)
    requires Drained(a, r, k)
    ensures |r.buf| + |r.queue| == |a.buf| + |a.queue|
  {
  }

  /** The drain loop of qsp_parse_data: while the head of rcv_buf carries fragment number
      `rcv_nxt`, it moves to the tail of rcv_queue and `rcv_nxt` steps down (wrapping at 0);
      no node is lost or made. */
  function DrainLoop(a: Reassembly): (r: Reassembly)
    ensures Drained(a, r, |r.queue| - |a.queue|)
    ensures |r.buf| + |r.queue| == |a.buf| + |a.queue|
    decreases |a.buf|
  {
    if a.buf != [] && a.buf[0].seg.frg == a.nxt then
      var r := DrainLoop(Reassembly(a.buf[1..], a.queue + [a.buf[0]], Sub32(a.nxt, 1)));
      DrainedStep(a, r, |r.queue| - |a.queue| - 1);
      DrainedCount(a, r, |r.queue| - |a.queue|);
      r
    else
      DrainedStop(a);
      a
  }

  /** The drain only moves nodes, so well-formed nodes stay well-formed. */
  lemma DrainedKeepsQueueOk(a: Reassembly, r: Reassembly, k: int)
    requires Drained(a, r, k)
    ensures QueueOk(a.buf) && QueueOk(a.queue) ==> QueueOk(r.buf) && QueueOk(r.queue)
  {
    assert forall i | 0 <= i < |r.queue| ::
      r.queue[i] == if i < |a.queue| then a.queue[i] else a.buf[i - |a.queue|];
    assert forall i | 0 <= i < |r.buf| :: r.buf[i] == a.buf[k + i];
  }

  /** The drain applied to the session's rcv_buf, rcv_queue and rcv_nxt. */
  function Drain(s: Session): (r: Session)
    ensures Drained(Reassembly(s.rcvBuf, s.rcvQueue, s.rcvNxt),
                    Reassembly(r.rcvBuf, r.rcvQueue, r.rcvNxt), |r.rcvQueue| - |s.rcvQueue|)
    ensures RcvCount(r) == RcvCount(s)
    ensures r == s.(rcvBuf := r.rcvBuf, rcvQueue := r.rcvQueue, rcvNxt := r.rcvNxt)
  {
    var r := DrainLoop(Reassembly(s.rcvBuf, s.rcvQueue, s.rcvNxt));
    s.(rcvBuf := r.buf, rcvQueue := r.queue, rcvNxt := r.nxt)
  }

  datatype Parsed = Parsed(s: Session, repeat: bool)

  /** qsp_parse_data: admit the node, then drain. */
  function ParseData(s: Session, n: Node): (p: Parsed)
    ensures RcvCount(p.s) == RcvCount(s) + (if p.repeat then 0 else 1)
    ensures p.repeat <==> SameAsLast(s.last, n.seg) || SnWaiting(s.rcvBuf, n.seg.sn)
    ensures p.s.last == if SameAsLast(s.last, n.seg) then s.last else n.seg
    ensures p.s.(rcvBuf := s.rcvBuf, rcvQueue := s.rcvQueue, rcvNxt := s.rcvNxt,
                 last := s.last) == s
    ensures QueueOk(s.rcvBuf) && QueueOk(s.rcvQueue) && NodeOk(n) ==>
              QueueOk(p.s.rcvBuf) && QueueOk(p.s.rcvQueue)
  {
    var a := Admit(s, n);
    var r := Drain(a.s);
    assert QueueOk(s.rcvBuf) && QueueOk(s.rcvQueue) && NodeOk(n) ==>
           QueueOk(r.rcvBuf) && QueueOk(r.rcvQueue) by {
      AdmitKeepsQueueOk(s, n);
      DrainedKeepsQueueOk(Reassembly(a.s.rcvBuf, a.s.rcvQueue, a.s.rcvNxt),
                          Reassembly(r.rcvBuf, r.rcvQueue, r.rcvNxt), |r.rcvQueue| - |a.s.rcvQueue|);
    }
    Parsed(r, a.repeat)
  }

  /** Handing the same node to qsp_parse_data twice in a row: the second time it is a
      repeat, and neither receive queue gains a node. */
  lemma {:induction false} ParseDataTwice(s: Session, n: Node)
    ensures var p := ParseData(s, n);
      var p2 := ParseData(p.s, n);
      p2.repeat && RcvCount(p2.s) == RcvCount(p.s)
  {
    var p := ParseData(s, n);
    assert SameAsLast(p.s.last, n.seg);
  }

  /** The consequence of testing `sn` rather than `frg`: while any fragment of a message is
      held back in rcv_buf, every further fragment with the same fragment count is dropped as
      a repeat, including ones never seen before. */
  lemma SiblingFragmentDropped(s: Session, n: Node, i: nat)
    requires i < |s.rcvBuf| && s.rcvBuf[i].seg.sn == n.seg.sn
    ensures ParseData(s, n).repeat
    ensures RcvCount(ParseData(s, n).s) == RcvCount(s)
  {
  }

  /** A concrete instance: fragments 1 and 0 of a three-fragment message, fragment 2 lost.
      Fragment 1 waits in rcv_buf (it is not next), and the new fragment 0 is then dropped. */
  lemma LostFirstFragmentStallsMessage()
    ensures var s := Create(7);
      var f1 := Node(0, Header(7, 1, 5, 3, CMD_PUSH, 91, 0, 0), []);
      var f0 := Node(0, Header(7, 0, 5, 3, CMD_PUSH, 91, 0, 0), []);
      var p1 := ParseData(s, f1);
      var p2 := ParseData(p1.s, f0);
      && !p1.repeat && p1.s.rcvBuf == [f1] && p1.s.rcvQueue == []
      && p2.repeat && p2.s.rcvBuf == [f1] && p2.s.rcvQueue == []
  {
    var s := Create(7);
    var f1 := Node(0, Header(7, 1, 5, 3, CMD_PUSH, 91, 0, 0), []);
    var f0 := Node(0, Header(7, 0, 5, 3, CMD_PUSH, 91, 0, 0), []);
    assert Sub32(3, 1) == 2;
    var a1 := Admit(s, f1);
    assert !a1.repeat && a1.s.rcvNxt == 0 && a1.s.rcvBuf == [f1];
    var r1 := DrainLoop(Reassembly(a1.s.rcvBuf, a1.s.rcvQueue, a1.s.rcvNxt));
    assert r1 == Reassembly([f1], [], 0);
    var p1 := ParseData(s, f1);
    assert p1.s.rcvBuf == [f1] && p1.s.rcvQueue == [];
    SiblingFragmentDropped(p1.s, f0, 0);
  }

  /** Fragments 1 and 0 of a two-fragment SINGLE-mode message of conversation 7. */
  const TWO_1: Node := Node(0, Header(7, 1, 5, 2, CMD_PUSH, 93, 0, 0), [])
  const TWO_0: Node := Node(0, Header(7, 0, 5, 2, CMD_PUSH, 93, 0, 0), [])

  /** Fragment 1 arrives first at a fresh receiver: it bootstraps `rcv_nxt` to 1 and drains
      at once, leaving `rcv_nxt` at 0. */
  lemma RebootstrapFirst()
    ensures ParseData(Create(7), TWO_1)
            == Parsed(Create(7).(last := TWO_1.seg, rcvQueue := [TWO_1]), false)
  {
    var s := Create(7);
    assert Sub32(2, 1) == 1 && Sub32(1, 1) == 0;
    var a := Admit(s, TWO_1);
    assert a.s == s.(last := TWO_1.seg, rcvNxt := 1, rcvBuf := [TWO_1]);
    assert DrainLoop(Reassembly([], [TWO_1], 0)) == Reassembly([], [TWO_1], 0);
    assert DrainLoop(Reassembly([TWO_1], [], 1)) == Reassembly([], [TWO_1], 0);
  }

  /** A second copy of fragment 1 is a repeat, yet it sets `rcv_nxt` back to 1. */
  lemma RebootstrapRepeat(s: Session)
    requires s == Create(7).(last := TWO_1.seg, rcvQueue := [TWO_1])
    ensures ParseData(s, TWO_1) == Parsed(s.(rcvNxt := 1), true)
  {
    assert Sub32(2, 1) == 1;
    var a := Admit(s, TWO_1);
    assert a.s == s.(rcvNxt := 1) && a.repeat;
    assert DrainLoop(Reassembly([], [TWO_1], 1)) == Reassembly([], [TWO_1], 1);
  }

  /** Fragment 0 then waits in rcv_buf: the drain expects fragment 1. */
  lemma RebootstrapStall(s: Session)
    requires s == Create(7).(last := TWO_1.seg, rcvQueue := [TWO_1], rcvNxt := 1)
    ensures ParseData(s, TWO_0) == Parsed(s.(last := TWO_0.seg, rcvBuf := [TWO_0]), false)
  {
    assert Sub32(2, 0) == 2;
    var a := Admit(s, TWO_0);
    assert a.s == s.(last := TWO_0.seg, rcvBuf := [TWO_0]) && !a.repeat;
    assert DrainLoop(Reassembly([TWO_0], [TWO_1], 1)) == Reassembly([TWO_0], [TWO_1], 1);
  }

  /** Another stall: a second copy of fragment 1 of a two-fragment message (SINGLE mode
      sends three, and a lost ACK makes the sender repeat one) arrives after fragment 1 was
      drained and `rcv_nxt` went back to 0.  It is dropped as a repeat, but the bootstrap
      still runs and sets `rcv_nxt` to 1 again, so fragment 0 then waits in rcv_buf. */
  lemma DuplicateFragmentRebootstraps()
    ensures var p1 := ParseData(Create(7), TWO_1);
      var p2 := ParseData(p1.s, TWO_1);
      var p3 := ParseData(p2.s, TWO_0);
      && !p1.repeat && p1.s.rcvQueue == [TWO_1] && p1.s.rcvBuf == [] && p1.s.rcvNxt == 0
      && p2.repeat && p2.s.rcvQueue == [TWO_1] && p2.s.rcvNxt == 1
      && !p3.repeat && p3.s.rcvQueue == [TWO_1] && p3.s.rcvBuf == [TWO_0] && p3.s.rcvNxt == 1
  {
    RebootstrapFirst();
    var p1 := ParseData(Create(7), TWO_1);
    RebootstrapRepeat(p1.s);
    var p2 := ParseData(p1.s, TWO_1);
    RebootstrapStall(p2.s);
  }

  // ---------------------------------------------------------------------
  // One pass of the qsp_recv_flush loop
  // ---------------------------------------------------------------------

  /** How the loop of qsp_recv_flush continues after a datagram: read the next one (More),
      return 0 (Done), return an error code (Failed), loop forever without reading (Spin),
      or behaviour the C language leaves undefined (Undefined). */
  datatype Flow = More | Done | Failed(code: int) | Spin | Undefined

  datatype Step = Step(s: Session, out: seq<seq<u8>>, flow: Flow)

  /** The node qsp_recv_flush builds for a PUSH: zero-filled by qsp_segment_new, then every
      header field but `ver` copied from the wire, and `len` payload bytes. */
  function Inbound(h: Header, data: seq<u8>): Node
  {
    Node(0, h.(ver := 0), data)
  }

  /** The PUSH branch once the payload fits the scratch buffer: parse the node; in HALF mode
      (the segment's mode) report loss with an AGAIN for `rcv_nxt` when more than PASS_NUM
      nodes wait in rcv_buf; ACK the node; and end the loop, resetting `rcv_nxt` to 0, when
      `rcv_nxt` is 0xFFFFFFFF after the parse. */
  function Push(s: Session, n: Node, now: u32): (st: Step)
    ensures var p := ParseData(s, n);
      && st.out == (if n.seg.mode == MODE_HALF && |p.s.rcvBuf| > PASS_NUM
                    then [RequestAgain(p.s, p.s.rcvNxt, now)] else []) + RespondAck(n, now)
      && (p.s.rcvNxt == 0xFFFF_FFFF <==> st.flow == Done)
      && (st.flow == Done || st.flow == More)
      && st.s == (if st.flow == Done then p.s.(rcvNxt := 0) else p.s)
    ensures WellFormed(s) && NodeOk(n) ==> WellFormed(st.s)
  {
    var p := ParseData(s, n);
    var again := if n.seg.mode == MODE_HALF && |p.s.rcvBuf| > PASS_NUM
                 then [RequestAgain(p.s, p.s.rcvNxt, now)] else [];
    var out := again + RespondAck(n, now);
    if p.s.rcvNxt == 0xFFFF_FFFF then Step(p.s.(rcvNxt := 0), out, Done)
    else Step(p.s, out, More)
  }

  /** The AGAIN branch as written: the lookup loop never advances, so it ends only when the
      head of snd_buf carries the requested fragment, which is then re-sent (and restamped);
      with any other head it spins, and with an empty snd_buf it sends the list head itself. */
  function Again(s: Session, frg: u32, now: u32): (st: Step)
    ensures s.sndBuf == [] <==> st.flow == Undefined
    ensures s.sndBuf != [] && s.sndBuf[0].seg.frg == frg ==>
              && st.flow == Done && st.out == [Wire(s.sndBuf[0])]
              && st.s.sndBuf == [s.sndBuf[0].(ts := now)] + s.sndBuf[1..]
    ensures s.sndBuf != [] && s.sndBuf[0].seg.frg != frg ==> st.flow == Spin
    ensures st.s.(sndBuf := s.sndBuf) == s
    ensures st.flow != Done ==> st.s == s && st.out == []
  {
    if s.sndBuf == [] then Step(s, [], Undefined)
    else if s.sndBuf[0].seg.frg == frg then
      var n := s.sndBuf[0];
      Step(s.(sndBuf := [n.(ts := now)] + s.sndBuf[1..]), [Wire(n)], Done)
    else Step(s, [], Spin)
  }

  /** A datagram of two bytes or more, after its header `h` has been decoded from the
      scratch buffer: a foreign conversation is -2 and an unknown command -3, both changing
      nothing; an ACK removes its fragment from snd_buf; a PUSH whose payload would run past
      the scratch buffer is undefined, else it is parsed; an AGAIN re-sends. */
  function Segment(s: Session, h: Header, buff: seq<u8>, now: u32): (st: Step)
    requires |buff| == BUF_SIZE
    ensures h.conv != s.conv ==> st == Step(s, [], Failed(-2))
    ensures h.conv == s.conv && h.cmd !in {CMD_PUSH, CMD_ACK, CMD_AGAIN} ==>
              st == Step(s, [], Failed(-3))
    ensures h.conv == s.conv && h.cmd == CMD_ACK ==>
              st == Step(s.(sndBuf := ParseAck(s.sndBuf, h.frg)), [], Done)
    ensures h.conv == s.conv && h.cmd == CMD_PUSH ==>
              st == if HEAD_SIZE + h.len > BUF_SIZE then Step(s, [], Undefined)
                    else Push(s, Inbound(h, buff[HEAD_SIZE..HEAD_SIZE + h.len]), now)
    ensures h.conv == s.conv && h.cmd == CMD_AGAIN ==> st == Again(s, h.frg, now)
    ensures st.flow.Failed? ==> st.s == s && st.out == []
    ensures st.flow == More ==> h.cmd == CMD_PUSH
  {
    if h.conv != s.conv then Step(s, [], Failed(-2))
    else if h.cmd != CMD_PUSH && h.cmd != CMD_ACK && h.cmd != CMD_AGAIN then
      Step(s, [], Failed(-3))
    else if h.cmd == CMD_ACK then
      Step(s.(sndBuf := ParseAck(s.sndBuf, h.frg)), [], Done)
    else if h.cmd == CMD_PUSH then
      if HEAD_SIZE + h.len > BUF_SIZE then Step(s, [], Undefined)
      else Push(s, Inbound(h, buff[HEAD_SIZE..HEAD_SIZE + h.len]), now)
    else Again(s, h.frg, now)
  }

  /** One iteration of the qsp_recv_flush loop, given what qsp_input returned (`ret`) and the
      scratch buffer afterwards: negative is -1 and changes nothing, zero means nothing was
      read, one byte is a WEAK ACK removing the first node whose whole `frg` equals that
      byte, and anything longer is a segment whose header is decoded from the first 24
      bytes. */
  function Dispatch(s: Session, buff: seq<u8>, ret: int, now: u32): (st: Step)
    requires |buff| == BUF_SIZE && ret <= BUF_SIZE
    ensures ret < 0 ==> st == Step(s, [], Failed(-1))
    ensures ret == 0 ==> st == Step(s, [], Done)
    ensures ret == 1 ==> st == Step(s.(sndBuf := ParseAck(s.sndBuf, buff[0])), [], Done)
    ensures ret > 1 ==> st == Segment(s, DecodeHeader(buff), buff, now)
    ensures st.flow.Failed? ==> st.s == s && st.out == []
  {
    if ret < 0 then Step(s, [], Failed(-1))
    else if ret == 0 then Step(s, [], Done)
    else if ret == 1 then Step(s.(sndBuf := ParseAck(s.sndBuf, buff[0])), [], Done)
    else Segment(s, DecodeHeader(buff), buff, now)
  }

  /** Removing a node from a queue of well-formed nodes leaves a queue of well-formed nodes. */
  lemma AckKeepsQueueOk(q: seq<Node>, frg: u32)
    requires QueueOk(q)
    ensures QueueOk(ParseAck(q, frg))
  {
    var k := FirstWithFrg(q, frg);
    var r := ParseAck(q, frg);
    ParseAckRemovesFirst(q, frg);
    if k < |q| {
      assert forall i | 0 <= i < |r| :: r[i] == if i < k then q[i] else q[i + 1];
    }
  }

  /** Re-sending the head of snd_buf only restamps it, so snd_buf stays well-formed. */
  lemma AgainKeepsWellFormed(s: Session, frg: u32, now: u32)
    requires WellFormed(s)
    ensures WellFormed(Again(s, frg, now).s)
  {
    if s.sndBuf != [] && s.sndBuf[0].seg.frg == frg {
      var q := Again(s, frg, now).s.sndBuf;
      assert forall i | 1 <= i < |q| :: q[i] == s.sndBuf[i];
    }
  }

  /** A decoded segment leaves a well-formed session well-formed: a PUSH node owns exactly
      `len` payload bytes taken from the scratch buffer. */
  lemma {:induction false} SegmentKeepsWellFormed(s: Session, h: Header, buff: seq<u8>, now: u32)
    requires WellFormed(s) && |buff| == BUF_SIZE
    ensures WellFormed(Segment(s, h, buff, now).s)
  {
    if h.conv == s.conv && h.cmd == CMD_ACK {
      AckKeepsQueueOk(s.sndBuf, h.frg);
    } else if h.conv == s.conv && h.cmd == CMD_PUSH && HEAD_SIZE + h.len <= BUF_SIZE {
      var n := Inbound(h, buff[HEAD_SIZE..HEAD_SIZE + h.len]);
      assert NodeOk(n);
    } else if h.conv == s.conv && h.cmd == CMD_AGAIN {
      AgainKeepsWellFormed(s, h.frg, now);
    }
  }

  /** Every datagram leaves a well-formed session well-formed: nodes only enter a queue
      owning exactly `len` payload bytes, and the sizes are never touched. */
  lemma {:induction false} DispatchKeepsWellFormed(s: Session, buff: seq<u8>, ret: int, now: u32)
    requires WellFormed(s) && |buff| == BUF_SIZE && ret <= BUF_SIZE
    ensures WellFormed(Dispatch(s, buff, ret, now).s)
  {
    if ret == 1 {
      AckKeepsQueueOk(s.sndBuf, buff[0]);
    } else if ret > 1 {
      SegmentKeepsWellFormed(s, DecodeHeader(buff), buff, now);
    }
  }

  // ---------------------------------------------------------------------
  // The qsp_recv_flush loop
  // ---------------------------------------------------------------------

  /** One qsp_input result: the return value and the scratch buffer's contents after it. */
  datatype Datagram = Datagram(ret: int, buff: seq<u8>)

  predicate InboxOk(inbox: seq<Datagram>)
  {
    forall i | 0 <= i < |inbox| :: |inbox[i].buff| == BUF_SIZE && inbox[i].ret <= BUF_SIZE
  }

  /** qsp_recv_flush over the datagrams qsp_input yields in turn; an exhausted inbox stands
      for qsp_input returning 0.  The loop goes on only after a PUSH that did not finish a
      message; the session is threaded through, and the messages sent are concatenated.
      The case clauses spell out one turn of the loop for the lemmas that follow it
      datagram by datagram (`RecvFlushKeepsWellFormed`, the end-to-end delivery lemmas). */
  function RecvFlush(s: Session, inbox: seq<Datagram>, now: u32): (st: Step)
    requires InboxOk(inbox)
    ensures st.flow != More
    ensures inbox == [] ==> st == Step(s, [], Done)
    ensures inbox != [] && Dispatch(s, inbox[0].buff, inbox[0].ret, now).flow != More ==>
              st == Dispatch(s, inbox[0].buff, inbox[0].ret, now)
    ensures inbox != [] && Dispatch(s, inbox[0].buff, inbox[0].ret, now).flow == More ==>
              var first := Dispatch(s, inbox[0].buff, inbox[0].ret, now);
              var rest := RecvFlush(first.s, inbox[1..], now);
              && first.out <= st.out
              && st == Step(rest.s, first.out + rest.out, rest.flow)
    decreases |inbox|
  {
    if inbox == [] then Step(s, [], Done)
    else
      var first := Dispatch(s, inbox[0].buff, inbox[0].ret, now);
      if first.flow == More then
        var rest := RecvFlush(first.s, inbox[1..], now);
        Step(rest.s, first.out + rest.out, rest.flow)
      else first
  }

  /** The receive loop keeps a well-formed session well-formed. */
  lemma {:induction false} RecvFlushKeepsWellFormed(s: Session, inbox: seq<Datagram>, now: u32)
    requires WellFormed(s) && InboxOk(inbox)
    ensures WellFormed(RecvFlush(s, inbox, now).s)
    decreases |inbox|
  {
    if inbox != [] {
      DispatchKeepsWellFormed(s, inbox[0].buff, inbox[0].ret, now);
      var first := Dispatch(s, inbox[0].buff, inbox[0].ret, now);
      if first.flow == More {
        RecvFlushKeepsWellFormed(first.s, inbox[1..], now);
      }
    }
  }

  // ---------------------------------------------------------------------
  // qsp_peeksize and qsp_recv
  // ---------------------------------------------------------------------

  /** The number of nodes of the first message in `q`: up to and including the first node
      with fragment number 0, or all of `q` when none has it. */
  function MessageEnd(q: seq<Node>): (k: nat)
    ensures k <= |q|
    ensures q != [] ==> 1 <= k
    ensures forall i | 0 <= i < k - 1 :: q[i].seg.frg != 0
    ensures k < |q| ==> q[k - 1].seg.frg == 0
    decreases |q|
  {
    if q == [] then 0
    else if q[0].seg.frg == 0 then 1
    else 1 + MessageEnd(q[1..])
  }

  /** Sum of the `len` fields of `q`. */
  function Lens(q: seq<Node>): nat
  {
    if q == [] then 0 else q[0].seg.len + Lens(q[1..])
  }

  /** The accumulating loop of qsp_peeksize: add each `len`, stop after a fragment 0. */
  function PeekLoop(q: seq<Node>): nat
  {
    if q == [] then 0
    else q[0].seg.len + (if q[0].seg.frg == 0 then 0 else PeekLoop(q[1..]))
  }

  /** qsp_peeksize on rcv_queue: 0 when empty, the head's `len` when it is fragment 0, the
      accumulated `len`s otherwise. */
  function Peeksize(q: seq<Node>): nat
  {
    if q == [] then 0
    else if q[0].seg.frg == 0 then q[0].seg.len
    else PeekLoop(q)
  }

  lemma {:induction false} PeekLoopIsPrefixLens(q: seq<Node>)
    ensures PeekLoop(q) == Lens(q[..MessageEnd(q)])
    decreases |q|
  {
    if q != [] && q[0].seg.frg != 0 {
      PeekLoopIsPrefixLens(q[1..]);
      assert q[..MessageEnd(q)][1..] == q[1..][..MessageEnd(q[1..])];
    } else if q != [] {
      assert q[..1][1..] == [];
    }
  }

  lemma {:induction false} LensIsPayloadLength(q: seq<Node>)
    requires QueueOk(q)
    ensures Lens(q) == |Payloads(q)|
    decreases |q|
  {
    if q != [] {
      LensIsPayloadLength(q[1..]);
    }
  }

  /** qsp_peeksize measures the first message: it is the byte count of the payloads of the
      nodes up to and including the first fragment 0 (all nodes, if none is 0). */
  lemma PeeksizeMeasuresMessage(q: seq<Node>)
    requires QueueOk(q)
    ensures Peeksize(q) == |Payloads(q[..MessageEnd(q)])|
  {
    PeekLoopIsPrefixLens(q);
    assert QueueOk(q[..MessageEnd(q)]);
    LensIsPayloadLength(q[..MessageEnd(q)]);
  }

  datatype Received = RecvFailed(code: int) | Got(s: Session, data: seq<u8>, ret: int)

  /** qsp_recv after its flush, on a non-empty rcv_queue (with an empty one the source
      flushes again and again until something arrives).  A negative `len` peeks with limit
      `-len`.  If the first message is larger than the limit the result is -3 and nothing is
      consumed; otherwise the consumption loop copies the payloads of the message's nodes in
      order, removes those nodes unless peeking, and returns the byte count. */
  method Recv(s: Session, len: i32) returns (r: Received)
    requires s.rcvQueue != [] && QueueOk(s.rcvQueue)
    ensures var limit := if len < 0 then -(len as int) else len as int;
      var k := MessageEnd(s.rcvQueue);
      && (Peeksize(s.rcvQueue) > limit <==> r == RecvFailed(-3))
      && (r.Got? ==>
            && r.data == Payloads(s.rcvQueue[..k])
            && r.ret == Peeksize(s.rcvQueue) == |r.data|
            && r.s == (if len < 0 then s else s.(rcvQueue := s.rcvQueue[k..])))
    ensures r.RecvFailed? ==> r.code == -3
  {
    var peek := len < 0;
    var limit := if len < 0 then -(len as int) else len as int;
    var q := s.rcvQueue;
    var size := Peeksize(q);
    if size > limit {
      return RecvFailed(-3);
    }
    var buf: seq<u8> := [];
    var total := 0;
    var i := 0;
    var rest := q;
    var done := false;
    while !done && i < |q|
      invariant 0 <= i <= |q|
      invariant done ==> i == MessageEnd(q)
      invariant !done ==> i < MessageEnd(q) || i == |q|
      invariant !done ==> forall j | 0 <= j < i :: q[j].seg.frg != 0
      invariant buf == Payloads(q[..i]) && total == |buf|
      invariant rest == if peek then q else q[i..]
      decreases |q| - i, !done
    {
      var n := q[i];
      PayloadsAppend(q[..i], [n]);
      assert q[..i + 1] == q[..i] + [n];
      buf := buf + n.data;
      total := total + n.seg.len;
      if !peek {
        rest := rest[1..];
      }
      i := i + 1;
      if n.seg.frg == 0 {
        done := true;
      }
    }
    PeeksizeMeasuresMessage(q);
    r := Got(s.(rcvQueue := rest), buf, total);
  }
}

=== FILE: sender.dfy ===
/** The send pipeline of qsp.c: the slicing in qsp_send, the snd_queue pass of
    qsp_send_flush, and one timeout scan of snd_buf. */
module Sender {
  import opened Bytes
  import opened Protocol
  import opened Codec

  /** The payloads of a queue laid end to end. */
  function Flatten(r: seq<seq<u8>>): seq<u8>
  {
    if r == [] then [] else r[0] + Flatten(r[1..])
  }

  lemma {:induction false} FlattenAppend(a: seq<seq<u8>>, b: seq<seq<u8>>)
    ensures Flatten(a + b) == Flatten(a) + Flatten(b)
    decreases |a|
  {
    if a == [] {
      assert a + b == b;
    } else {
      assert (a + b)[1..] == a[1..] + b;
      FlattenAppend(a[1..], b);
    }
  }

  // ---------------------------------------------------------------------
  // qsp_send: fragment count and slicing
  // ---------------------------------------------------------------------

  /** The fragment count of qsp_send: one fragment up to `mss` bytes, else ceil(len/mss). */
  function FragmentCount(len: nat, mss: nat): (count: nat)
    requires mss > 0
    ensures count >= 1
    ensures len <= mss ==> count == 1
    ensures (count - 1) * mss < len || (len == 0 && count == 1)
    ensures len <= count * mss
  {
    if len <= mss then 1 else CeilDiv(len, mss)
  }

  /** `(len + mss - 1) / mss` as the source writes it. */
  function CeilDiv(len: nat, mss: nat): (q: nat)
    requires mss > 0
    ensures (q - 1) * mss < len <= q * mss || len == q == 0
  {
    var q := (len + mss - 1) / mss;
    var r := (len + mss - 1) % mss;
    assert len + mss - 1 == q * mss + r;
    assert q * mss - mss == (q - 1) * mss;
    q
  }

  /** The slicing loop of qsp_send, `n` iterations over the remaining buffer: each takes
      `min(remaining, mss)` bytes and advances past them. */
  function Slices(data: seq<u8>, mss: nat, n: nat): (r: seq<seq<u8>>)
    requires mss > 0
    ensures |r| == n
    ensures forall i | 0 <= i < n :: |r[i]| <= mss
    ensures Flatten(r) == data[..Min(|data|, n * mss)]
    ensures (n - 1) * mss < |data| ==> forall i | 0 <= i < n - 1 :: |r[i]| == mss
    decreases n
  {
    if n == 0 then []
    else
      var size := if |data| > mss then mss else |data|;
      var tail := Slices(data[size..], mss, n - 1);
      assert n * mss == mss + (n - 1) * mss;
      assert (n - 1) * mss < |data| && n >= 2 ==> (n - 2) * mss < |data| - size by {
        assert (n - 1) * mss == mss + (n - 2) * mss;
      }
      assert 0 <= (n - 1) * mss;
      assert data[..size] + data[size..][..Min(|data| - size, (n - 1) * mss)]
          == data[..Min(|data|, n * mss)];
      [data[..size]] + tail
  }

  /** The fragments qsp_send builds for `payload`, in snd_queue order: fragment `i` carries
      the `i`-th slice, `frg = count - i - 1`, `sn = count`, command PUSH, the session's
      conversation, mode and version, and the clock sample `now`; its local send time is 0
      as allocated. */
  function Fragment(s: Session, payload: seq<u8>, now: u32): seq<Node>
    requires WellFormed(s) && |payload| < 0x8000_0000
  {
    var count := FragmentCount(|payload|, s.mss);
    var slices := Slices(payload, s.mss, count);
    seq(count, i requires 0 <= i < count =>
      Node(0, Header(s.conv, count - i - 1, now, count, CMD_PUSH,
                     Narrow16(s.mode), Narrow16(s.ver), |slices[i]|), slices[i]))
  }

  /** The payloads of a node queue laid end to end. */
  function Payloads(q: seq<Node>): seq<u8>
  {
    if q == [] then [] else q[0].data + Payloads(q[1..])
  }

  lemma {:induction false} PayloadsAppend(a: seq<Node>, b: seq<Node>)
    ensures Payloads(a + b) == Payloads(a) + Payloads(b)
    decreases |a|
  {
    if a == [] {
      assert a + b == b;
    } else {
      assert (a + b)[1..] == a[1..] + b;
      PayloadsAppend(a[1..], b);
    }
  }

  lemma {:induction false} PayloadsOfSlices(q: seq<Node>, r: seq<seq<u8>>)
    requires |q| == |r| && forall i | 0 <= i < |q| :: q[i].data == r[i]
    ensures Payloads(q) == Flatten(r)
    decreases |q|
  {
    if q != [] {
      PayloadsOfSlices(q[1..], r[1..]);
    }
  }

  /** A fragment chain of `sn` nodes of conversation `conv`: PUSH segments whose `frg`
      counts down to 0 in queue order, each owning its `len` payload bytes. */
  ghost predicate Chain(q: seq<Node>, conv: u32)
  {
    && 1 <= |q| < 0x1_0000_0000
    && forall i | 0 <= i < |q| ::
         && q[i].seg.frg == |q| - 1 - i && q[i].seg.sn == |q|
         && q[i].seg.cmd == CMD_PUSH && q[i].seg.conv == conv
         && NodeOk(q[i])
  }

  /** The fragments of qsp_send: `max(1, ceil(len/mss))` nodes forming a countdown chain,
      every one but the last a full `mss` bytes, none longer, and their payloads laid end
      to end give back the input buffer. */
  lemma {:induction false} FragmentShape(s: Session, payload: seq<u8>, now: u32)
    requires WellFormed(s) && |payload| < 0x8000_0000
    ensures var q := Fragment(s, payload, now);
      && |q| == FragmentCount(|payload|, s.mss)
      && Chain(q, s.conv)
      && Payloads(q) == payload
      && (forall i | 0 <= i < |q| :: q[i].seg.len <= s.mss && q[i].seg.ts == now
            && q[i].seg.mode == Narrow16(s.mode) && q[i].seg.ver == Narrow16(s.ver))
      && (forall i | 0 <= i < |q| - 1 :: q[i].seg.len == s.mss)
  {
    var q := Fragment(s, payload, now);
    var count := FragmentCount(|payload|, s.mss);
    var slices := Slices(payload, s.mss, count);
    assert count * s.mss >= |payload|;
    PayloadsOfSlices(q, slices);
    assert count <= |payload| + 1;
  }

  /** In WEAK mode an accepted payload (at most 256 full segments) yields at most 256
      fragments, so every `frg` fits the one-byte ACK. */
  lemma WeakFragmentsFitOneByte(s: Session, payload: seq<u8>, now: u32)
    requires WellFormed(s) && |payload| <= 256 * s.mss
    ensures var q := Fragment(s, payload, now);
      |q| <= 256 && forall i | 0 <= i < |q| :: q[i].seg.frg <= 255
  {
    var q := Fragment(s, payload, now);
    FragmentShape(s, payload, now);
  }

  // ---------------------------------------------------------------------
  // qsp_send_flush: the snd_queue pass
  // ---------------------------------------------------------------------

  /** A session together with the wire messages an operation handed to the transport. */
  datatype Effect = Effect(s: Session, out: seq<seq<u8>>)

  /** Position of copy `j` of node `i` when every node is sent `k` times in a row. */
  function Slot(i: nat, k: nat, j: nat): nat
  {
    i * k + j
  }

  lemma SlotShift(i: nat, k: nat)
    requires i > 0
    ensures forall j :: Slot(i, k, j) == k + Slot(i - 1, k, j)
    ensures k * i == k + k * (i - 1)
  {
  }

  /** Each element of `xs`, in order, repeated `k` times in a row: the `k` entries from
      position `i * k` on are copies of `xs[i]`, and there is nothing else. */
  function Repeat<T>(xs: seq<T>, k: nat): (out: seq<T>)
    ensures |out| == k * |xs|
    ensures forall i, j | 0 <= i < |xs| && 0 <= j < k ::
              Slot(i, k, j) < |out| && out[Slot(i, k, j)] == xs[i]
    decreases |xs|
  {
    if xs == [] then []
    else
      var rest := Repeat(xs[1..], k);
      var copies := seq(k, _ => xs[0]);
      var out := copies + rest;
      SlotShift(|xs|, k);
      forall i, j | 0 <= i < |xs| && 0 <= j < k
        ensures Slot(i, k, j) < |out| && out[Slot(i, k, j)] == xs[i]
      {
        if i == 0 {
          assert Slot(i, k, j) == j;
          assert out[j] == copies[j];
        } else {
          SlotShift(i, k);
          var p := Slot(i - 1, k, j);
          assert out[k + p] == rest[p];
          assert xs[i] == xs[1..][i - 1];
        }
      }
      out
  }

  /** The transport messages of `q`, one per node, in order. */
  function Wires(q: seq<Node>): (out: seq<seq<u8>>)
    ensures |out| == |q|
    ensures forall i | 0 <= i < |q| :: out[i] == Wire(q[i])
  {
    seq(|q|, i requires 0 <= i < |q| => Wire(q[i]))
  }

  /** Every node of `q` with its local send time set to `now`. */
  function Stamp(q: seq<Node>, now: u32): (r: seq<Node>)
    ensures |r| == |q|
    ensures forall i | 0 <= i < |q| :: r[i] == q[i].(ts := now)
  {
    seq(|q|, i requires 0 <= i < |q| => q[i].(ts := now))
  }

  /** Copies of each fragment the pass sends: SINGLE_NUM in SINGLE mode, else one. */
  function Copies(mode: u32): nat
  {
    if mode == MODE_SINGLE then SINGLE_NUM else 1
  }

  /** The snd_queue loop of qsp_send_flush.  Every node is sent (three times in SINGLE
      mode), stamped with the send time, and then moved to the tail of snd_buf (HALF, WEAK
      and any other mode value) or discarded (SINGLE). */
  function TransmitPass(s: Session, now: u32): (e: Effect)
    ensures e.s.sndQueue == []
    ensures |e.out| == Copies(s.mode) * |s.sndQueue|
    ensures forall i, j | 0 <= i < |s.sndQueue| && 0 <= j < Copies(s.mode) ::
              Slot(i, Copies(s.mode), j) < |e.out|
              && e.out[Slot(i, Copies(s.mode), j)] == Wire(s.sndQueue[i])
    ensures s.mode == MODE_SINGLE ==> e.s.sndBuf == s.sndBuf
    ensures s.mode != MODE_SINGLE ==>
              && |e.s.sndBuf| == |s.sndBuf| + |s.sndQueue|
              && e.s.sndBuf[..|s.sndBuf|] == s.sndBuf
              && forall i | 0 <= i < |s.sndQueue| ::
                   e.s.sndBuf[|s.sndBuf| + i] == s.sndQueue[i].(ts := now)
    ensures e.s.(sndQueue := s.sndQueue, sndBuf := s.sndBuf) == s
    ensures WellFormed(s) ==> WellFormed(e.s)
  {
    var out := Repeat(Wires(s.sndQueue), Copies(s.mode));
    if s.mode != MODE_SINGLE then
      Effect(s.(sndQueue := [], sndBuf := s.sndBuf + Stamp(s.sndQueue, now)), out)
    else
      Effect(s.(sndQueue := []), out)
  }

  /** In every mode but SINGLE the pass sends each queued node exactly once, in order. */
  lemma PassSendsOnce(s: Session, now: u32)
    requires s.mode != MODE_SINGLE
    ensures TransmitPass(s, now).out == Wires(s.sndQueue)
  {
    var out := TransmitPass(s, now).out;
    forall i | 0 <= i < |s.sndQueue|
      ensures out[i] == Wire(s.sndQueue[i])
    {
      assert Slot(i, 1, 0) == i;
    }
  }

  // ---------------------------------------------------------------------
  // qsp_send
  // ---------------------------------------------------------------------

  datatype SendResult = SendFailed(code: int) | Sent(s: Session, out: seq<seq<u8>>, ret: int)

  /** qsp_send up to and including the snd_queue pass of qsp_send_flush: argument errors
      return -1 (negative length) and -2 (WEAK payload beyond 256 segments) with nothing
      queued; otherwise the fragments of the first `len` bytes are appended to snd_queue,
      transmitted, and `len` is returned. */
  function Send(s: Session, buf: seq<u8>, len: i32, now: u32): (r: SendResult)
    requires WellFormed(s) && len <= |buf|
    ensures len < 0 <==> r == SendFailed(-1)
    ensures (len >= 0 && s.mode == MODE_WEAK && len > 256 * s.mss) <==> r == SendFailed(-2)
    ensures r.Sent? ==> r.ret == len && WellFormed(r.s) && r.s.sndQueue == []
    ensures r.Sent? ==> r.s.(sndBuf := s.sndBuf, sndQueue := s.sndQueue) == s
  {
    if len < 0 then SendFailed(-1)
    else if s.mode == MODE_WEAK && len > 256 * s.mss then SendFailed(-2)
    else
      var frags := Fragment(s, buf[..len], now);
      FragmentShape(s, buf[..len], now);
      var e := TransmitPass(s.(sndQueue := s.sndQueue + frags), now);
      Sent(e.s, e.out, len)
  }

  /** A successful send from an idle sender (empty snd_queue) transmits exactly the
      fragments of the payload: once each and then held in snd_buf awaiting ACKs in HALF
      and WEAK mode, three times each and nothing held in SINGLE mode. */
  lemma {:induction false} SendTransmitsFragments(s: Session, buf: seq<u8>, len: i32, now: u32)
    requires WellFormed(s) && 0 <= len <= |buf| && s.sndQueue == []
    requires Send(s, buf, len, now).Sent?
    ensures var q := Fragment(s, buf[..len], now);
      var r := Send(s, buf, len, now);
      && (s.mode != MODE_SINGLE ==> r.out == Wires(q) && r.s.sndBuf == s.sndBuf + Stamp(q, now))
      && (s.mode == MODE_SINGLE ==> r.out == Repeat(Wires(q), SINGLE_NUM) && r.s.sndBuf == s.sndBuf)
  {
    var q := Fragment(s, buf[..len], now);
    var s1 := s.(sndQueue := s.sndQueue + q);
    assert s1.sndQueue == q;
    if s.mode != MODE_SINGLE {
      PassSendsOnce(s1, now);
    }
  }

  // ---------------------------------------------------------------------
  // One timeout scan of the ACK-wait loop in qsp_send_flush
  // ---------------------------------------------------------------------

  /** `ts + TIME_OUT < now` in unsigned 32-bit arithmetic. */
  predicate Expired(n: Node, now: u32)
  {
    Add32(n.ts, TIME_OUT) < now
  }

  /** The nodes of `q` whose ACK is overdue, in order. */
  function Overdue(q: seq<Node>, now: u32): seq<Node>
  {
    if q == [] then []
    else (if Expired(q[0], now) then [q[0]] else []) + Overdue(q[1..], now)
  }

  lemma WiresAppend(a: seq<Node>, b: seq<Node>)
    ensures Wires(a + b) == Wires(a) + Wires(b)
  {
  }

  /** One pass of the snd_buf scan: every overdue node is re-sent with its header and
      payload unchanged, and re-sending restamps its local send time. */
  function RetransmitScan(q: seq<Node>, now: u32): (r: (seq<Node>, seq<seq<u8>>))
    ensures |r.0| == |q|
    ensures forall i | 0 <= i < |q| ::
              && r.0[i].seg == q[i].seg && r.0[i].data == q[i].data
              && r.0[i].ts == (if Expired(q[i], now) then now else q[i].ts)
    ensures r.1 == Wires(Overdue(q, now))
    decreases |q|
  {
    if q == [] then ([], [])
    else
      var tail := RetransmitScan(q[1..], now);
      var n := q[0];
      var first := if Expired(n, now) then [n] else [];
      WiresAppend(first, Overdue(q[1..], now));
      ([if Expired(n, now) then n.(ts := now) else n] + tail.0, Wires(first) + tail.1)
  }

  /** The scan applied to the session: only snd_buf's send times change. */
  function Retransmit(s: Session, now: u32): (e: Effect)
    ensures e.s.(sndBuf := s.sndBuf) == s
    ensures |e.s.sndBuf| == |s.sndBuf|
    ensures forall i | 0 <= i < |s.sndBuf| ::
              && e.s.sndBuf[i].seg == s.sndBuf[i].seg && e.s.sndBuf[i].data == s.sndBuf[i].data
              && e.s.sndBuf[i].ts == (if Expired(s.sndBuf[i], now) then now else s.sndBuf[i].ts)
    ensures e.out == Wires(Overdue(s.sndBuf, now))
    ensures WellFormed(s) ==> WellFormed(e.s)
  {
    var (q, out) := RetransmitScan(s.sndBuf, now);
    Effect(s.(sndBuf := q), out)
  }
}
